=== FILE: README.md ===
# Verified model of the learning archive's small logic cores

This project is written in Dafny. It models the parts of a web-development learning archive that hold self-contained sequential logic, and proves what that logic promises:

- **Bubble sort.** `bubble_sort` from the Python exercise: a non-mutating ascending sort that exits early after a pass with no swap.
- **Product table.** The "thinking in React" product table. `sanitizeProducts` fills defaults into loosely typed records. `ProductTable` keeps products by name filter and stock flag and puts a category header in front of every change of category.
- **To-do app.** Guarded add, confirmed delete, and the placeholder/table choice of `DisplayAllTodos`.
- **Student list.** The student list page: `load`, `handleDelete`, and the rendered heading and rows.
- **Student form.** The `yup` schema, default values, edit-mode loading with abort filtering, and the create/update dispatch of `onSubmit`. The server/error/default message fallback chain is in `Api`.
- **Chat completion script.** The Postman post-response script's `constructVisualizerPayload`: the first `user` message of the request body, or `""`.
- **Theme switchers.** The two theme switchers: the light→dark→medium cycle of the Microsoft Learn site and the light→medium→dark cycle of the simple website, each with its button label.
- **Day lists.** The two day-list pages: Monday..Sunday with weekend marking, and Sunday..Saturday.

The DOM and React are abstracted away:
- A class list is a `seq<string>`. A `<ul>` is an `Option<seq<ListItem>>`, where `None` means `getElementById` found nothing.
- A component's state is an immutable datatype. Each event handler is a pure function from state and inputs to the next state.
- Inputs stand for what the code cannot compute itself:
  - the outcome of an axios request, as an `Outcome`;
  - the answer to `window.confirm`, as a `bool`;
  - `Date.now()`, as an `int`;
  - yup's e-mail format test, as a predicate.

Modules (files under `src/`):

| module | file | models |
|---|---|---|
| `Wrappers` | wrappers.dfy | `Option` and `Outcome` |
| `Text` | text.dfy | ASCII `toLowerCase`, `indexOf`, `trim`, `join`, decimal rendering of a count, and a string's `length` in UTF-16 code units |
| `Seqs` | seqs.dfy | `Array.prototype.filter` and unique keys |
| `Js` | js.dfy | the JavaScript values a raw product field can hold, and their truthiness and `String()` |
| `BubbleSort` | bubble_sort.dfy | `bubble_sort` and its quick test |
| `Products` | products.dfy | `sanitizeProducts` and `ProductTable` |
| `Todos` | todos.dfy | the to-do app |
| `Api` | api.dfy | a rejected request and the message fallback chains |
| `Students` | students.dfy | the student record |
| `StudentsList` | students_list.dfy | the student list page |
| `StudentForm` | student_form.dfy | the student form page |
| `ChatCompletion` | chat_completion.dfy | `constructVisualizerPayload` |
| `Dom` | dom.dfy | `classList.add`/`remove`, `className`, list items |
| `Themes` | themes.dfy | the three theme classes and swapping one for another |
| `LearnThemeSwitcher`, `ThemeSwitcher` | theme_switchers.dfy | the two click handlers |
| `WeekList`, `ShowDays` | day_lists.dfy | the two day-list pages |

Notes on the source's behaviour:
- The two day lists run in different orders. The list of `Projects/Assignments/Asg2_DayList/DaysOfWeek.js` runs Monday..Sunday and marks the weekend. The list of `Assignments/DaysOfWeek.js` runs Sunday..Saturday.
- In the Microsoft Learn switcher the label is derived from `document.body.className` compared as a whole string. So the label names the next theme only while the body carries no other class. `LearnThemeSwitcher.OtherClassesForceLightLabel` states what happens otherwise.
- The student list's delete alert uses only the server's message before "Delete failed". It skips the error's own message, unlike the other three fallback chains (`Api.ChainsDifferOnlyWithoutServerMessage`).

## Model

| member | source | states |
|---|---|---|
| BubbleSort.BubbleSort | Python/Code/Exercise1.py:3-20 | The result is sorted ascending and has the same length and the same multiset of elements as the input. An input of fewer than two elements comes back equal. The loop invariants state that after pass `i` the last `i+1` places hold the largest elements in final order, and that a pass without a swap leaves everything sorted. |
| BubbleSort.BubbleStep | Python/Code/Exercise1.py:14-17 | One comparison of a pass, swapping or not: the largest element seen so far moves on to the next place, the sorted tail and the split in front of it stay, and a comparison without a swap extends the sorted prefix by one. |
| BubbleSort.PassEnd | Python/Code/Exercise1.py:12-17 | A pass that has carried the largest remaining element to the end of the unsorted part grows the sorted tail by one place. |
| BubbleSort.NoSwapPassSorted | Python/Code/Exercise1.py:18-19 | A pass that made no swap has walked over a sorted prefix; with the sorted tail beyond it the whole list is sorted, so the early exit returns a sorted list. |
| BubbleSort.SwapNext | Python/Code/Exercise1.py:15-16 | Swapping two neighbours keeps the multiset of elements and the length. |
| BubbleSort.SortedPermutationUnique | Python/Code/Exercise1.py:3-20 | Two sorted sequences with the same multiset are equal, so the sort's result is determined by its input alone. |
| BubbleSort.SampleSortedIsSorted | Python/Code/Exercise1.py:24 | The expected output of the quick test is sorted. |
| BubbleSort.SampleSameElements | Python/Code/Exercise1.py:23-24 | The quick test's input and expected output hold the same elements. |
| BubbleSort.SampleHasOneSortedArrangement | Python/Code/Exercise1.py:23-24 | Any sorted permutation of the quick test's input is the expected output. |
| BubbleSort.QuickTest | Python/Code/Exercise1.py:23-25 | Sorting `[24,-3,24,-3,2,0,17,1]` gives `[-3,-3,0,1,2,17,24,24]`, and the input is unchanged. |
| Js.Truthy | ReactJS/Code/thinking-in-react/src/App.js:136 | `Boolean(v)` is false exactly for the falsy values `undefined`, `null`, `false`, `0` and `""`. |
| Js.ToStr | ReactJS/Code/thinking-in-react/src/App.js:133-137 | `String(v)`: a string is itself, booleans read "true"/"false", `null`/`undefined` read "null"/"undefined". An integer is written in decimal with a leading `-` iff it is negative and no leading zero, and its digits read back to its magnitude. |
| Js.TruthyNumberIffNotZeroText | ReactJS/Code/thinking-in-react/src/App.js:133-136 | A number is truthy exactly when `String` does not write it as "0". |
| Js.StrOr | ReactJS/Code/thinking-in-react/src/App.js:133-137 | `String(v ?? fallback)`: null and undefined give the fallback, and a string is kept as it is. |
| Products.Sanitize | ReactJS/Code/thinking-in-react/src/App.js:132-138 | A missing name, price or category becomes "Unnamed", "NA" or "Uncategorized". `stocked` is the truthiness of the raw value. The raw record is kept. A missing record gets all three defaults and is not stocked. |
| Products.SanitizeProducts | ReactJS/Code/thinking-in-react/src/App.js:131-140 | A null or undefined list gives `[]`. Otherwise the length is kept and item `i` is raw item `i` sanitised, so each item carries the defaults `Sanitize` promises. |
| Products.SanitizeClean | ReactJS/Code/thinking-in-react/src/App.js:131-140 | A record whose name, price and category are strings and whose stock flag is a boolean is sanitised to exactly those values. |
| Products.SanitizeTwice | ReactJS/Code/thinking-in-react/src/App.js:131-140 | Sanitising a sanitised product again gives back the same name, price text, stock flag and category. |
| Products.SampleMalformedRecords | ReactJS/Code/thinking-in-react/src/App.js:124-128 | The three malformed sample records become "Unnamed"/stocked, "Uncategorized"/"3"/not stocked, and "NA"/stocked. |
| Text.Lower | ReactJS/Code/thinking-in-react/src/App.js:57-58 | ASCII `toLowerCase` keeps the length and lowers each upper-case letter. |
| Text.LowerIdempotent | ReactJS/Code/thinking-in-react/src/App.js:57-58 | Lower-casing twice is lower-casing once. |
| Text.IndexOf | ReactJS/Code/thinking-in-react/src/App.js:58 | `indexOf` is -1 exactly when the text does not occur. Otherwise it is the first position where it occurs. |
| Text.EmptyOccurs | ReactJS/Code/thinking-in-react/src/App.js:58 | The empty filter text occurs in every name, at position 0. |
| Products.ShownMeans | ReactJS/Code/thinking-in-react/src/App.js:57-62 | A product passes the filter iff its lower-cased name contains the lower-cased filter text and it is not excluded by in-stock-only. |
| Products.KeptPass | ReactJS/Code/thinking-in-react/src/App.js:53-62 | Every kept product passes both tests, and every product that passes is kept. |
| Products.UnfilteredKeepsAll | ReactJS/Code/thinking-in-react/src/App.js:53-59 | With an empty filter and in-stock-only off, every product is kept, in order. |
| Products.ProductTable | ReactJS/Code/thinking-in-react/src/App.js:49-73 | The product rows are exactly the kept products (the input filtered by the name and stock tests), in input order, each once. A header comes right before a product iff that product's category differs from the previous kept product's category, and headers appear nowhere else. The header count equals the number of category groups. |
| Products.ProductTableRowsPass | ReactJS/Code/thinking-in-react/src/App.js:53-62 | Rows built from the kept products hold only products whose lower-cased name contains the lower-cased filter and that are in stock when asked. With no filter and in-stock-only off, they hold every product in input order. |
| Products.BlockKeepsLayout | ReactJS/Code/thinking-in-react/src/App.js:63-72 | Appending one product's rows (an optional header, then the product) to a well laid-out table keeps it well laid out, adds that product and nothing else, and adds a header only on a change of category. |
| Todos.HandleAddition | ReactJS/Code/simple-todo-app/src/App.jsx:90-110 | A title that is blank after trimming changes nothing. Otherwise exactly one todo is appended, with the supplied id, the trimmed title and the current completed flag. Earlier todos are unchanged and the form resets to `""`/`false`. The new title is non-empty, does not start or end with whitespace, and occurs in the typed title. |
| Todos.HandleDeletion | ReactJS/Code/simple-todo-app/src/App.jsx:112-117 | A declined confirmation changes nothing. A confirmed one removes every todo with the target's id and keeps how many times each other todo occurs. |
| Todos.DeletionKeepsOrder | ReactJS/Code/simple-todo-app/src/App.jsx:115 | Deleting from a list made of two parts is deleting from each part, so the surviving todos keep their relative order. |
| Todos.AdditionKeepsUniqueIds | ReactJS/Code/simple-todo-app/src/App.jsx:95-103 | If the new id is not already taken, unique ids stay unique after an add. |
| Todos.DeletionKeepsUniqueIds | ReactJS/Code/simple-todo-app/src/App.jsx:115 | Unique ids stay unique after a delete. |
| Todos.DeleteUndoesAdd | ReactJS/Code/simple-todo-app/src/App.jsx:90-117 | Deleting, with confirmation, the todo just added under a fresh id gives back the todo list from before the add. |
| Todos.DisplayAllTodos | ReactJS/Code/simple-todo-app/src/App.jsx:49-83 | The placeholder "No tasks yet!" is shown iff there are no todos. Otherwise there is one row per todo, in order, with its id and title, showing "Yes" iff it is completed. |
| Todos.AddedTodoIsLastRow | ReactJS/Code/simple-todo-app/src/App.jsx:49-110 | After adding a non-blank title, the table has one more row, and the last row shows the new id, the trimmed title and "Yes" or "No" by the form's completed flag. |
| Text.Trim | ReactJS/Code/simple-todo-app/src/App.jsx:91-98 | The trimmed string is a slice of the input that neither starts nor ends with whitespace. |
| Text.TrimEmptyIffAllSpace | ReactJS/Code/simple-todo-app/src/App.jsx:91 | Trimming gives `""` iff the string is all whitespace. |
| Text.TrimOccurs | ReactJS/Code/simple-todo-app/src/App.jsx:91-98 | A string trims to something non-empty iff it is not all whitespace, and then the trimmed title occurs inside the typed one. |
| Text.TrimIdempotent | ReactJS/Code/simple-todo-app/src/App.jsx:98 | Trimming twice is trimming once. |
| Seqs.Filter | ReactJS/Code/simple-todo-app/src/App.jsx:115 | The result is no longer than the input, and everything in it is in the input and passes the test. |
| Seqs.FilterCount | ReactJS/Code/simple-todo-app/src/App.jsx:115 | Filtering keeps every element that passes the test as often as it occurred, and drops every element that fails. |
| Seqs.FilterAppend | ReactJS/Code/simple-todo-app/src/App.jsx:115 | Filtering a concatenation concatenates the filtered parts, so order is kept. |
| Seqs.FilterFilter | HTML_CSS_JS/Projects/MSLearn/simple-website/app.js:6-15 | Filtering by a stronger test after a weaker one is filtering by the stronger one. |
| Seqs.FilterKeepsUnique | ReactJS/Code/slcm-frontend/src/pages/StudentsList.jsx:35 | Filtering keeps keys unique. |
| Api.MessageOr | ReactJS/Code/slcm-frontend/src/pages/StudentsList.jsx:20 | The message is the server's message if it is non-empty, else the error's own message if non-empty, else the fallback. It is never empty when the fallback is not. |
| Api.ServerMessageOr | ReactJS/Code/slcm-frontend/src/pages/StudentsList.jsx:37 | The message is the server's message if it is non-empty, else the fallback. |
| Api.ChainsDifferOnlyWithoutServerMessage | ReactJS/Code/slcm-frontend/src/pages/StudentsList.jsx:20-37 | The two chains agree when the server sent a message. They differ when only the error's own message is present. |
| StudentsList.LoadStart | ReactJS/Code/slcm-frontend/src/pages/StudentsList.jsx:14-15 | `load` starts by turning the spinner on and clearing the error. The students are kept. |
| StudentsList.LoadSettle | ReactJS/Code/slcm-frontend/src/pages/StudentsList.jsx:16-23 | Success replaces the students. Failure keeps them and sets the error through the chain ending in "Failed to load". The spinner goes off either way. |
| StudentsList.Load | ReactJS/Code/slcm-frontend/src/pages/StudentsList.jsx:13-24 | After a load the spinner is off, and there is no error iff the request succeeded. A failure leaves the students unchanged with a non-empty error. |
| StudentsList.DeleteStart | ReactJS/Code/slcm-frontend/src/pages/StudentsList.jsx:31-32 | Starting a delete marks that id as the one being deleted and leaves the students, the spinner and the error alone. |
| StudentsList.SettleDelete | ReactJS/Code/slcm-frontend/src/pages/StudentsList.jsx:33-40 | The settle step with the update applied to the list as it then stands. After it `deletingId` is cleared. Success removes exactly the students with that id and keeps how often each other student occurs. Failure keeps the list and alerts the server's message or "Delete failed". |
| StudentsList.SettleDeleteAsWritten | ReactJS/Code/slcm-frontend/src/pages/StudentsList.jsx:33-40 | The settle step as written. On success there is no alert, and the list holds exactly the students of the handler's captured list whose id differs from the deleted one, each as often as in the captured list, whatever the list has become since. Failure keeps the current list and alerts as `SettleDelete` does. Either way `deletingId` is cleared and the spinner and error are unchanged. |
| StudentsList.OnlyDeletedRowDisabled | ReactJS/Code/slcm-frontend/src/pages/StudentsList.jsx:32-76 | While a delete is in flight, a row's button is disabled iff that row's student has the id being deleted, so every other row can start a second delete. |
| StudentsList.OverlappingDeletesAsWrittenRestore | ReactJS/Code/slcm-frontend/src/pages/StudentsList.jsx:35-76 | With students 1 and 2 listed, while 1's delete is in flight its button is disabled and student 2's is enabled. If 2 is then deleted and both requests succeed in click order, the list ends as just student 1: the first delete is undone. |
| StudentsList.OverlappingDeletesBothApply | ReactJS/Code/slcm-frontend/src/pages/StudentsList.jsx:30-41 | With each settle applied to the current list, two overlapping successful deletes remove both ids and keep every other student as often as before. |
| StudentsList.HandleDelete | ReactJS/Code/slcm-frontend/src/pages/StudentsList.jsx:30-41 | A declined confirmation changes nothing, `deletingId` included. After an attempt `deletingId` is cleared. Success removes exactly the students with that id and keeps how often each other student occurs. Failure keeps the list and alerts the server's message or "Delete failed". |
| StudentsList.SingleDeleteAgrees | ReactJS/Code/slcm-frontend/src/pages/StudentsList.jsx:30-41 | For one delete with nothing in between, filtering the captured list and filtering the current list settle to the same state and alert. |
| StudentsList.DeleteKeepsOrder | ReactJS/Code/slcm-frontend/src/pages/StudentsList.jsx:35 | A successful delete from a list made of two parts is a delete from each part, so the surviving students keep their relative order. |
| StudentsList.DeleteKeepsUniqueIds | ReactJS/Code/slcm-frontend/src/pages/StudentsList.jsx:35 | Unique ids stay unique after a delete. |
| StudentsList.Render | ReactJS/Code/slcm-frontend/src/pages/StudentsList.jsx:43-85 | The spinner shows iff loading. The error shows iff not loading and the error is non-empty, with that message. Otherwise there is one row per student, in order, with its id, full name, e-mail, department and GPA. A row's button is disabled iff that student is being deleted, and then reads "Deleting...", otherwise "Delete". |
| Text.NatToDecimal | ReactJS/Code/slcm-frontend/src/pages/StudentsList.jsx:48 | A count is written as decimal digits with no leading zero. |
| Text.DecimalRoundTrip | ReactJS/Code/slcm-frontend/src/pages/StudentsList.jsx:48 | Reading back the written digits gives the count. |
| StudentsList.HeadingCountsStudents | ReactJS/Code/slcm-frontend/src/pages/StudentsList.jsx:48 | The heading is "Students (n)", where reading back `n` gives the number of students. |
| StudentsList.LoadThenRender | ReactJS/Code/slcm-frontend/src/pages/StudentsList.jsx:13-48 | After a successful load the page shows a table with one row per loaded student, in order, carrying that student's id, full name and e-mail. After a failed load it shows the error. |
| Text.Utf16Length | ReactJS/Code/slcm-frontend/src/pages/StudentForm.jsx:12-13 | A string's JavaScript `length` counts UTF-16 code units: at least one and at most two per character, and zero only for `""`. |
| Text.Utf16LengthCounts | ReactJS/Code/slcm-frontend/src/pages/StudentForm.jsx:12-13 | A string of Basic Multilingual Plane characters has a `length` equal to its number of characters. A string with any character above U+FFFF has a longer one. |
| StudentForm.CheckString | ReactJS/Code/slcm-frontend/src/pages/StudentForm.jsx:12-16 | A string field passes iff it is present, non-empty and within its bound. It raises Required iff it is missing or empty. A length-bounded field raises MaxLength iff it is present, non-empty and longer than its bound in UTF-16 code units. |
| StudentForm.CheckEmail | ReactJS/Code/slcm-frontend/src/pages/StudentForm.jsx:14 | The e-mail field passes iff it is present, non-empty and well formed. It raises Required iff it is missing or empty, and a format error iff it is present, non-empty and rejected by the format test. |
| StudentForm.CheckNumber | ReactJS/Code/slcm-frontend/src/pages/StudentForm.jsx:17-18 | A number field passes iff it is present and within its bounds. It raises Required iff it is missing, Min iff it lies below the lower bound, and Max iff it is within the lower bound but above the upper one. |
| StudentForm.Validate | ReactJS/Code/slcm-frontend/src/pages/StudentForm.jsx:10-20 | The schema reports at most one error per field: no two errors name the same field. Each error names a field together with the rule that field breaks. |
| StudentForm.CheckAllSound | ReactJS/Code/slcm-frontend/src/pages/StudentForm.jsx:10-20 | Checking a list of fields gives at most one error per listed field. Each error names a listed field and the rule it breaks. When the listed fields are distinct, so are the fields of the errors. |
| StudentForm.ValidateFlagsExactlyBadFields | ReactJS/Code/slcm-frontend/src/pages/StudentForm.jsx:10-20 | Each field is reported iff it breaks its rule. First and last names must be non-empty with a JavaScript `length` of at most 50 (UTF-16 code units). Phone and department must be non-empty. The e-mail must be non-empty and well formed. Year must be in 1..4 and GPA in 0..4. The form is accepted iff no field is reported. |
| StudentForm.CheckAllReports | ReactJS/Code/slcm-frontend/src/pages/StudentForm.jsx:10-20 | Checking a list of fields reports exactly the listed fields that fail their own check. |
| StudentForm.DefaultsAreRefused | ReactJS/Code/slcm-frontend/src/pages/StudentForm.jsx:36-45 | The default values are five empty text fields, year 1, GPA 0 and active. Submitted as they are, they fail with exactly five Required errors, one per text field. |
| StudentForm.Mount | ReactJS/Code/slcm-frontend/src/pages/StudentForm.jsx:25-45 | The page starts loading iff it is in edit mode, with no error and the default values. |
| StudentForm.LoadStudent | ReactJS/Code/slcm-frontend/src/pages/StudentForm.jsx:48-82 | Outside edit mode nothing happens. In edit mode the spinner goes off whatever the outcome. A loaded student fills the form. A cancellation leaves the error alone. Any other failure sets it through the chain ending in "Failed to load student". |
| StudentForm.LoadedStudentRevalidates | ReactJS/Code/slcm-frontend/src/pages/StudentForm.jsx:10-20 | A loaded student who meets the schema passes validation as loaded. |
| StudentForm.Submit | ReactJS/Code/slcm-frontend/src/pages/StudentForm.jsx:84-97 | A request is sent iff the form is acceptable. It is an update of the page's id iff in edit mode, otherwise a create, and it carries the form values. Navigation to "/" happens iff the request succeeded. A failure sets the error through the chain ending in "Save failed". After a request nothing but the error changes and no field error shows. An invalid form shows exactly the schema's field errors and changes nothing. |
| ChatCompletion.ConstructVisualizerPayload | Postman/Code/Post-Response_scripts/ChatCompletion.js:41-64 | The response is passed through. An unparseable body, or one without a message list, gives `""`. Otherwise the result is the content of the first message whose role is exactly "user", later ones being ignored, or `""` when there is none. |
| Dom.Add | HTML_CSS_JS/Projects/MSLearn/simple-website/app.js:8 | After `classList.add(c)`, `c` is present, every other class keeps its membership, and the list stays duplicate-free. |
| Dom.Remove | HTML_CSS_JS/Projects/MSLearn/simple-website/app.js:7 | After `classList.remove(c)`, `c` is absent, every other class keeps its membership, and the list stays duplicate-free. |
| Dom.ClassNameIsSingle | HTML_CSS_JS/Projects/MSLearn/simple-website/app.js:17-20 | `className` equals a single class name iff the class list is exactly that one class. |
| Themes.Swap | HTML_CSS_JS/Projects/MSLearn/simple-website/app.js:6-15 | Removing one theme class and adding another leaves the added class present and the removed one absent. The third theme's presence is unchanged, and so are the non-theme classes. |
| Themes.OnlyThemeClass | HTML_CSS_JS/Projects/MSLearn/simple-website/app.js:17-24 | A duplicate-free class list with no other classes and one theme class is exactly that class. |
| LearnThemeSwitcher.Step | HTML_CSS_JS/Projects/MSLearn/simple-website/app.js:6-15 | The class-list half of a click moves the current theme (light, then dark, then medium, in test order) to the next one in the cycle. With at most one theme class before, exactly one is present after. Non-theme classes are kept, and a duplicate-free list stays duplicate-free. |
| LearnThemeSwitcher.LabelFor | HTML_CSS_JS/Projects/MSLearn/simple-website/app.js:17-24 | When `className` is exactly one theme class, the label names the theme the next click moves to. Any other `className` gives "Light". |
| LearnThemeSwitcher.Click | HTML_CSS_JS/Projects/MSLearn/simple-website/app.js:5-27 | Light becomes dark, dark becomes medium, and medium or no theme becomes light. With at most one theme class before, exactly one is present after. Non-theme classes are kept. |
| LearnThemeSwitcher.LabelNamesNextTheme | HTML_CSS_JS/Projects/MSLearn/simple-website/app.js:17-24 | On a body with no other class and at most one theme, the new label names the theme the next click will produce. |
| LearnThemeSwitcher.OtherClassesForceLightLabel | HTML_CSS_JS/Projects/MSLearn/simple-website/app.js:17-24 | On a body with any other class, the label is "Light" whatever the theme. |
| LearnThemeSwitcher.ThreeClicksReturn | HTML_CSS_JS/Projects/MSLearn/simple-website/app.js:6-15 | Three clicks from one theme class return to it, with the other classes unchanged. |
| ThemeSwitcher.Click | HTML_CSS_JS/simple-website/app.js:5-22 | Light becomes medium, medium becomes dark, and dark or no theme becomes light. The label names the theme the next click produces. With at most one theme class before, exactly one is present after. |
| ThemeSwitcher.ThreeClicksReturn | HTML_CSS_JS/simple-website/app.js:6-18 | Three clicks from one theme class return to it, with the other classes unchanged. |
| WeekList.Display | HTML_CSS_JS/Projects/Assignments/Asg2_DayList/DaysOfWeek.js:1-19 | A missing list stays missing. Otherwise the list holds exactly seven fresh items, Monday to Sunday; Saturday and Sunday carry only the class `weekend`, and the other days no class. |
| WeekList.Erase | HTML_CSS_JS/Projects/Assignments/Asg2_DayList/DaysOfWeek.js:21-24 | A missing list stays missing. Otherwise it is left empty. |
| WeekList.DisplayIdempotent | HTML_CSS_JS/Projects/Assignments/Asg2_DayList/DaysOfWeek.js:6 | Showing twice is showing once, and what the list held before does not matter. |
| WeekList.DisplayedDaysDistinct | HTML_CSS_JS/Projects/Assignments/Asg2_DayList/DaysOfWeek.js:1-18 | No day appears twice. |
| WeekList.EraseForgetsDisplay | HTML_CSS_JS/Projects/Assignments/Asg2_DayList/DaysOfWeek.js:21-24 | Clearing after showing, or clearing twice, is the same as clearing once. |
| ShowDays.ShowDays | HTML_CSS_JS/Assignments/DaysOfWeek.js:1-12 | A missing list makes the handler fail. Otherwise the list holds exactly seven items, and item `i` is the `i`th day from Sunday to Saturday. |
| ShowDays.ShowDaysIdempotent | HTML_CSS_JS/Assignments/DaysOfWeek.js:5 | Clicking twice gives the same seven items as clicking once, and what the list held before does not matter. |
| ShowDays.ShowDaysDistinct | HTML_CSS_JS/Assignments/DaysOfWeek.js:1-11 | The first item is Sunday, the last is Saturday, and no day appears twice. |

## Left out

- `priceValue` (the numeric price) is not modelled, because it is floating-point `Number` parsing. Prices and the other product fields hold only strings, booleans, integers, `null` or `undefined`. Object values and non-integer numbers are not modelled. `Js.ToStr` writes every integer in plain decimal, which matches JavaScript's `String(n)` only for magnitudes below 10^21; larger numbers are written there in exponent form (`"1e+21"`).
- Unicode case folding and `String.prototype.trim`'s full whitespace set are not modelled. Lower-casing is ASCII only, and trimming removes space, tab, line feed, carriage return, vertical tab and form feed.
- React itself is not modelled: hooks, re-rendering, `key` props, the `Loading`/`ErrorMessage` components and react-router. Each handler is a pure state transition, and a rendered page is a small view datatype.
- `window.confirm` is a boolean input. `Date.now()` is an `int` input. The student list's delete `alert` is an output field of `StudentsList.HandleDelete`.
- Todos.HandleAddition: the `alert` raised for a blank title is not modelled. A blank title is modelled as leaving the app unchanged, with no output. `console.log`/`console.error` are dropped.
- The axios calls (`getStudents`, `deleteStudent`, `getStudent`, `createStudent`, `updateStudent`) are not modelled. Their outcomes are inputs.
- StudentsList.HandleDelete: filters the list as it stands when the request settles, which is the corrected behaviour (see "## Findings"). The source filters the `students` the handler captured when it was rendered; `StudentsList.SettleDeleteAsWritten` models that, and the two differ whenever the list changed while the delete was in flight. `HandleDelete` runs one delete to completion, and for such a delete the two agree (`StudentsList.SingleDeleteAgrees`); overlapping deletes are stated through the settle steps.
- `Array.isArray` in `DisplayAllTodos` is not modelled. The todo list is always a sequence, so only the empty/non-empty choice remains.
- yup's e-mail format test is not modelled. It is a predicate parameter. yup's string-to-number coercion is not modelled either: year and GPA are already numbers (reals) or missing. The submitting flag is not modelled.
- The `AbortController` cleanup is not modelled. `getStudent` in `api/studentsApi.js` takes only the id, so the `{ signal }` passed to it is ignored and aborting never cancels the request. The cancellation branch of `LoadStudent` is therefore never taken in this code base. The model keeps that branch as written: an error named `CanceledError` or `AbortError` leaves the error alone.
- `pm.response.json()` and `pm.request.body.raw` are not modelled. The response is an opaque type parameter, and the request body is already parsed or marked unparseable. A message's `content` is a string.
- Bubble sort works on a Dafny sequence, which is a value, rather than on a Python list. So "the caller's list is not modified" holds by construction. It is not stated as a postcondition about the heap.
- The visualizer template and table rendering of the chat completion script are not modelled. Nor are the `console.log` of the theme switchers, nor the event-listener wiring of every page.
- LearnThemeSwitcher.LabelNamesNextTheme: requires a body with no other class and distinct classes. That is the only case in which the label names the next theme, and `LearnThemeSwitcher.OtherClassesForceLightLabel` covers the rest.

## Findings

| source | as written | input that shows it | evidently intended | confidence | as-written member | corrected member |
|---|---|---|---|---|---|---|
| ReactJS/Code/slcm-frontend/src/pages/StudentsList.jsx:35 | A successful delete sets the list to `students.filter(...)`, where `students` is the list the handler captured when the page was rendered. Only the row being deleted has its button disabled (line 76), so a second delete can start before the first settles. | Students 1 and 2 listed; delete 1, then delete 2 before the first request settles; both succeed, in click order. The list ends as `[student 1]`. | Filter the list as it stands when the request settles, e.g. `setStudents(prev => prev.filter((s) => s.id !== id))`, so that both students are gone. | not executed | StudentsList.SettleDeleteAsWritten, StudentsList.OverlappingDeletesAsWrittenRestore | StudentsList.SettleDelete, StudentsList.OverlappingDeletesBothApply |

=== FILE: src/api.dfy ===
/** The failure side of the student API calls: the error an axios request
    rejects with, and the message the pages show for it. */
module Api {
  import opened Wrappers

  /** A rejected request: the error's `name`, its `message`, and the
      `message` field of the server's JSON response body, if any. Absent
      values are `None`. */
  datatype HttpError = HttpError(name: string, message: Option<string>, serverMessage: Option<string>)

  /** A string that JavaScript's `||` would pass over: absent or empty. */
  predicate Blank(s: Option<string>) { s.None? || s.value == "" }

  /** `err.response?.data?.message || err.message || fallback`. */
  function MessageOr(err: HttpError, fallback: string): (m: string)
    ensures !Blank(err.serverMessage) ==> m == err.serverMessage.value
    ensures Blank(err.serverMessage) && !Blank(err.message) ==> m == err.message.value
    ensures Blank(err.serverMessage) && Blank(err.message) ==> m == fallback
    ensures fallback != "" ==> m != ""
  {
    if !Blank(err.serverMessage) then err.serverMessage.value
    else if !Blank(err.message) then err.message.value
    else fallback
  }

  /** `err.response?.data?.message || fallback`: the server's message only,
      without the error's own message in between. */
  function ServerMessageOr(err: HttpError, fallback: string): (m: string)
    ensures !Blank(err.serverMessage) ==> m == err.serverMessage.value
    ensures Blank(err.serverMessage) ==> m == fallback
  {
    if !Blank(err.serverMessage) then err.serverMessage.value else fallback
  }

  /** The two chains agree whenever the server sent a message, and differ
      when only the error's own message is there. */
  lemma ChainsDifferOnlyWithoutServerMessage(err: HttpError, fallback: string)
    ensures !Blank(err.serverMessage) ==> MessageOr(err, fallback) == ServerMessageOr(err, fallback)
    ensures Blank(err.serverMessage) && !Blank(err.message) && err.message.value != fallback ==>
      MessageOr(err, fallback) != ServerMessageOr(err, fallback)
  {
  }
}

=== FILE: src/bubble_sort.dfy ===
/** `bubble_sort` from the Python exercise: a non-mutating ascending sort
    that swaps adjacent out-of-order pairs and stops after the first pass
    that made no swap. */
module BubbleSort {

  /** `s[lo..hi]` is in non-decreasing order. */
  ghost predicate SortedBetween(s: seq<int>, lo: int, hi: int)
    requires 0 <= lo <= hi <= |s|
  {
    forall a, b :: lo <= a < b < hi ==> s[a] <= s[b]
  }

  /** Every element before `k` is at most every element from `k` on. */
  ghost predicate SplitAt(s: seq<int>, k: int)
    requires 0 <= k <= |s|
  {
    forall a, b :: 0 <= a < k <= b < |s| ==> s[a] <= s[b]
  }

  ghost predicate Sorted(s: seq<int>) {
    SortedBetween(s, 0, |s|)
  }

  /** `s` with the adjacent elements at `j` and `j + 1` exchanged: the
      tuple assignment `out[j], out[j + 1] = out[j + 1], out[j]`. */
  function SwapNext(s: seq<int>, j: nat): (r: seq<int>)
    requires j + 1 < |s|
    ensures |r| == |s|
    ensures r[j] == s[j + 1] && r[j + 1] == s[j]
    ensures forall k :: 0 <= k < |s| && k != j && k != j + 1 ==> r[k] == s[k]
    ensures multiset(r) == multiset(s)
  {
    s[j := s[j + 1]][j + 1 := s[j]]
  }

  /** One comparison of a pass, in front of the sorted suffix `s[k..]`:
      whether or not `s[j]` and `s[j + 1]` are swapped, the largest element
      so far moves on to `j + 1`, the suffix and the split stay, and an
      unswapped step extends a sorted prefix by one. */
  lemma BubbleStep(s: seq<int>, j: nat, k: nat)
    requires j + 1 < k <= |s|
    requires SortedBetween(s, k, |s|) && SplitAt(s, k)
    requires forall a :: 0 <= a <= j ==> s[a] <= s[j]
    ensures var t := if s[j] > s[j + 1] then SwapNext(s, j) else s;
      && SortedBetween(t, k, |t|) && SplitAt(t, k)
      && (forall a :: 0 <= a <= j + 1 ==> t[a] <= t[j + 1])
    ensures s[j] <= s[j + 1] && SortedBetween(s, 0, j + 1) ==> SortedBetween(s, 0, j + 2)
  {
    if s[j] > s[j + 1] {
      var t := SwapNext(s, j);
      forall a, b | 0 <= a < k <= b < |t| ensures t[a] <= t[b] {
        if a == j { assert t[a] == s[j + 1]; }
        else if a == j + 1 { assert t[a] == s[j]; }
      }
    }
  }

  /** A pass that ends with the largest of `s[..k]` at `k - 1` grows the
      sorted suffix by one place. */
  lemma PassEnd(s: seq<int>, k: nat)
    requires 1 <= k <= |s|
    requires SortedBetween(s, k, |s|) && SplitAt(s, k)
    requires forall a :: 0 <= a <= k - 1 ==> s[a] <= s[k - 1]
    ensures SortedBetween(s, k - 1, |s|) && SplitAt(s, k - 1)
  {
  }

  /** A pass without a swap has walked over a sorted prefix `s[..k]`; with
      the sorted suffix beyond it the whole sequence is sorted. */
  lemma NoSwapPassSorted(s: seq<int>, k: nat)
    requires k <= |s|
    requires SortedBetween(s, 0, k) && SortedBetween(s, k, |s|) && SplitAt(s, k)
    ensures Sorted(s)
  {
  }

  /** Sorts a copy of `arr`. The caller's list is a value and is never
      touched; the result is the ascending arrangement of the same elements.
      Lists shorter than two come back as an equal copy. */
  method BubbleSort(arr: seq<int>) returns (r: seq<int>)
    ensures |r| == |arr|
    ensures Sorted(r)
    ensures multiset(r) == multiset(arr)
    ensures |arr| < 2 ==> r == arr
  {
    var n := |arr|;
    var out := arr;
    if n < 2 {
      return out;
    }
    var i := 0;
    while i < n - 1
      invariant 0 <= i <= n - 1
      invariant |out| == n
      invariant multiset(out) == multiset(arr)
      // after i passes the last i positions hold the i largest elements, in order
      invariant SortedBetween(out, n - i, n)
      invariant SplitAt(out, n - i)
    {
      var swapped := false;
      var j := 0;
      while j < n - 1 - i
        invariant 0 <= j <= n - 1 - i
        invariant |out| == n
        invariant multiset(out) == multiset(arr)
        invariant SortedBetween(out, n - i, n)
        invariant SplitAt(out, n - i)
        // the pass carries the largest element seen so far along with it
        invariant forall a :: 0 <= a <= j ==> out[a] <= out[j]
        // a pass that has not swapped yet has walked over a sorted prefix
        invariant !swapped ==> SortedBetween(out, 0, j + 1)
      {
        BubbleStep(out, j, n - i);
        if out[j] > out[j + 1] {
          out := SwapNext(out, j);
          swapped := true;
        }
        j := j + 1;
      }
      if !swapped {
        // early exit: the pass found no inversion, so the list is sorted
        NoSwapPassSorted(out, n - i);
        return out;
      }
      PassEnd(out, n - i);
      i := i + 1;
    }
    return out;
  }

  lemma SortedTail(a: seq<int>)
    requires a != [] && Sorted(a)
    ensures Sorted(a[1..])
    ensures forall k :: 0 <= k < |a| ==> a[0] <= a[k]
  {
  }

  /** A sorted arrangement of a multiset is unique. */
  lemma {:induction false} SortedPermutationUnique(a: seq<int>, b: seq<int>)
    requires Sorted(a) && Sorted(b)
    requires multiset(a) == multiset(b)
    ensures a == b
  {
    assert |a| == |multiset(a)| == |multiset(b)| == |b|;
    if a != [] {
      SortedTail(a);
      SortedTail(b);
      assert a[0] in multiset(b);
      assert b[0] in multiset(a);
      assert a[0] in b && b[0] in a;
      assert a[0] == b[0];
      assert a == [a[0]] + a[1..];
      assert b == [b[0]] + b[1..];
      calc {
        multiset(a[1..]);
        multiset(a) - multiset{a[0]};
        multiset(b) - multiset{b[0]};
        multiset(b[1..]);
      }
      SortedPermutationUnique(a[1..], b[1..]);
    }
  }

  /** The sample list of the quick test and the result it prints. */
  const SampleInput: seq<int> := [24, -3, 24, -3, 2, 0, 17, 1]
  const SampleSorted: seq<int> := [-3, -3, 0, 1, 2, 17, 24, 24]

  lemma SampleSortedIsSorted()
    ensures Sorted(SampleSorted)
  {
  }

  lemma SampleSameElements()
    ensures multiset(SampleInput) == multiset(SampleSorted)
  {
    var x := [24, -3, 24, -3, 2, 0, 17, 1];
    var y := [-3, -3, 0, 1, 2, 17, 24, 24];
    assert multiset(x) == multiset{24, -3, 24, -3, 2, 0, 17, 1};
    assert multiset(y) == multiset{-3, -3, 0, 1, 2, 17, 24, 24};
    assert multiset{24, -3, 24, -3, 2, 0, 17, 1} == multiset{-3, -3, 0, 1, 2, 17, 24, 24};
  }

  /** Any sorted rearrangement of the sample list is the printed result. */
  lemma SampleHasOneSortedArrangement(r: seq<int>)
    requires Sorted(r) && multiset(r) == multiset(SampleInput)
    ensures r == SampleSorted
  {
    SampleSortedIsSorted();
    SampleSameElements();
    SortedPermutationUnique(r, SampleSorted);
  }

  /** The quick test at the bottom of the exercise: the sample list sorts to
      the printed result, and the sample itself stays as it was. */
  method QuickTest() returns (sorted: seq<int>, data: seq<int>)
    ensures sorted == [-3, -3, 0, 1, 2, 17, 24, 24]
    ensures data == [24, -3, 24, -3, 2, 0, 17, 1]
  {
    data := SampleInput;
    sorted := BubbleSort(data);
    SampleHasOneSortedArrangement(sorted);
  }
}

=== FILE: src/chat_completion.dfy ===
/** The Postman post-response script of the chat-completion request: it
    pairs the response with the content of the first "user" message of the
    request body, for the visualiser template. */
module ChatCompletion {
  import opened Wrappers

  /** An entry of the request's `messages` array. `Absent` is a `null` or
      `undefined` entry, on which reading `role` throws. */
  datatype Message = Absent | Message(role: string, content: string)

  /** The raw request body once `JSON.parse` has run on it: unparseable, or
      an object whose `messages` is an array (`Some`) or missing or not
      iterable (`None`). */
  datatype RequestBody = Unparseable | Parsed(messages: Option<seq<Message>>)

  /** What the template receives. */
  datatype Payload<R> = Payload(response: R, userMessage: string)

  predicate IsUser(m: Message) { m.Message? && m.role == "user" }

  /** Entry `i` is the first user message and nothing before it throws. */
  ghost predicate FirstUserAt(msgs: seq<Message>, i: int) {
    && 0 <= i < |msgs|
    && IsUser(msgs[i])
    && forall j :: 0 <= j < i ==> msgs[j].Message? && !IsUser(msgs[j])
  }

  /** `constructVisualizerPayload`. The response passes through unchanged.
      `userMessage` is the content of the first message whose role is
      exactly "user"; later ones are never looked at. It stays "" when there
      is no such message, and when parsing or iterating throws: the body is
      unparseable, `messages` is not an array, or an absent entry is reached
      before the first user message. */
  method ConstructVisualizerPayload<R>(response: R, body: RequestBody) returns (payload: Payload<R>)
    ensures payload.response == response
    ensures body.Unparseable? || body == Parsed(None) ==> payload.userMessage == ""
    ensures body.Parsed? && body.messages.Some? ==>
      forall i :: FirstUserAt(body.messages.value, i) ==> payload.userMessage == body.messages.value[i].content
    ensures body.Parsed? && body.messages.Some? ==>
      (forall i :: !FirstUserAt(body.messages.value, i)) ==> payload.userMessage == ""
  {
    var userMessage := "";
    match body {
      case Unparseable =>
      case Parsed(None) =>
      case Parsed(Some(msgs)) =>
        var k := 0;
        while k < |msgs|
          invariant 0 <= k <= |msgs|
          invariant userMessage == ""
          invariant forall j :: 0 <= j < k ==> msgs[j].Message? && !IsUser(msgs[j])
        {
          var msg := msgs[k];
          if msg.Absent? {
            // reading `role` of a null entry throws; the catch keeps ""
            break;
          }
          if msg.role == "user" {
            userMessage := msg.content;
            assert FirstUserAt(msgs, k);
            break;
          }
          k := k + 1;
        }
    }
    payload := Payload(response, userMessage);
  }
}

=== FILE: src/day_lists.dfy ===
/** The day-list page of the second assignment: "show" clears the list and
    fills it with the seven days from Monday, marking the weekend; "clear"
    empties it. A page without the list element makes both do nothing. */
module WeekList {
  import opened Wrappers
  import opened Dom

  const Days: seq<string> := ["Monday", "Tuesday", "Wednesday", "Thursday", "Friday", "Saturday", "Sunday"]

  predicate IsWeekend(day: string) { day == "Saturday" || day == "Sunday" }

  /** The `<li>` created for one day. */
  function DayItem(day: string): ListItem {
    ListItem(day, if IsWeekend(day) then ["weekend"] else [])
  }

  /** `display`: the list's old items are discarded and exactly the seven
      days follow, Monday to Sunday, with the `weekend` class on the last
      two and on no other. `None` is a page without the list element. */
  function Display(list: Option<seq<ListItem>>): (r: Option<seq<ListItem>>)
    ensures list.None? <==> r.None?
    ensures r.Some? ==> |r.value| == 7
    ensures r.Some? ==> forall i :: 0 <= i < 7 ==> r.value[i] == ListItem(Days[i], if i >= 5 then ["weekend"] else [])
  {
    match list
    case None => None
    case Some(_) => Some(seq(|Days|, i requires 0 <= i < |Days| => DayItem(Days[i])))
  }

  /** `erase`: the list is left empty. */
  function Erase(list: Option<seq<ListItem>>): (r: Option<seq<ListItem>>)
    ensures list.None? <==> r.None?
    ensures r.Some? ==> r.value == []
  {
    match list
    case None => None
    case Some(_) => Some([])
  }

  /** Showing again shows the same seven items: nothing is duplicated, and
      what was in the list before does not matter. */
  lemma DisplayIdempotent(list: Option<seq<ListItem>>, other: seq<ListItem>)
    ensures Display(Display(list)) == Display(list)
    ensures list.Some? ==> Display(list) == Display(Some(other))
  {
  }

  /** No day appears twice after `display`. */
  lemma DisplayedDaysDistinct(list: Option<seq<ListItem>>)
    requires list.Some?
    ensures forall i, j :: 0 <= i < j < |Display(list).value| ==> Display(list).value[i].text != Display(list).value[j].text
  {
  }

  /** Clearing after showing, or clearing twice, leaves the same empty list. */
  lemma EraseForgetsDisplay(list: Option<seq<ListItem>>)
    ensures Erase(Display(list)) == Erase(list)
    ensures Erase(Erase(list)) == Erase(list)
  {
  }
}

/** The days-of-the-week page of the first assignment: "show days" clears
    the list and fills it with the seven days from Sunday. A page without
    the list element makes the handler throw. */
module ShowDays {
  import opened Wrappers
  import opened Dom

  const Days: seq<string> := ["Sunday", "Monday", "Tuesday", "Wednesday", "Thursday", "Friday", "Saturday"]

  /** `showDays`: `Err` when `getElementById` found no list and setting
      `innerHTML` on `null` throws; otherwise item `i` is `Days[i]` and the
      old items are gone. */
  function ShowDays(list: Option<seq<ListItem>>): (r: Outcome<seq<ListItem>, string>)
    ensures list.None? <==> r.Err?
    ensures r.Ok? ==> |r.data| == 7
    ensures r.Ok? ==> forall i :: 0 <= i < 7 ==> r.data[i] == ListItem(Days[i], [])
  {
    match list
    case None => Err("TypeError")
    case Some(_) => Ok(seq(|Days|, i requires 0 <= i < |Days| => ListItem(Days[i], [])))
  }

  /** Clicking twice gives the same seven items as clicking once: the
      handler ignores what the list held. */
  lemma ShowDaysIdempotent(list: seq<ListItem>, other: seq<ListItem>)
    ensures ShowDays(Some(list)).Ok?
    ensures ShowDays(Some(ShowDays(Some(list)).data)) == ShowDays(Some(list))
    ensures ShowDays(Some(list)) == ShowDays(Some(other))
  {
  }

  /** The seven items are seven different days, Sunday first. */
  lemma ShowDaysDistinct(list: seq<ListItem>)
    ensures var items := ShowDays(Some(list)).data;
      items[0].text == "Sunday" && items[6].text == "Saturday" &&
      forall i, j :: 0 <= i < j < 7 ==> items[i].text != items[j].text
  {
  }
}

=== FILE: src/dom.dfy ===
/** The slice of the DOM the page scripts touch: an element's class list
    (a `DOMTokenList`, ordered and free of duplicates) and list items. */
module Dom {
  import Text
  import Seqs

  /** No class occurs twice. */
  predicate Distinct(classes: seq<string>) {
    forall i, j :: 0 <= i < j < |classes| ==> classes[i] != classes[j]
  }

  /** A class token: non-empty, without white space. */
  predicate IsToken(c: string) {
    c != [] && ' ' !in c
  }

  predicate Tokens(classes: seq<string>) {
    forall i :: 0 <= i < |classes| ==> IsToken(classes[i])
  }

  /** `classList.add(c)`: appended unless already present. */
  function Add(classes: seq<string>, c: string): (r: seq<string>)
    ensures c in r
    ensures forall x :: x in r <==> x in classes || x == c
    ensures Distinct(classes) ==> Distinct(r)
    ensures Tokens(classes) && IsToken(c) ==> Tokens(r)
  {
    if c in classes then classes else classes + [c]
  }

  predicate Differs(x: string, c: string) { x != c }

  /** `classList.remove(c)`: every other class stays, in order. */
  function Remove(classes: seq<string>, c: string): (r: seq<string>)
    ensures c !in r
    ensures forall x :: x in r <==> x in classes && x != c
    ensures Distinct(classes) ==> Distinct(r)
    ensures Tokens(classes) ==> Tokens(r)
  {
    var r := Seqs.Filter(classes, x => Differs(x, c));
    forall x | x in classes && x != c ensures x in r {
      Seqs.FilterCount(classes, x => Differs(x, c), x);
    }
    DistinctFilter(classes, c);
    assert forall i :: 0 <= i < |r| ==> r[i] in classes;
    r
  }

  lemma {:induction false} DistinctFilter(classes: seq<string>, c: string)
    ensures Distinct(classes) ==> Distinct(Seqs.Filter(classes, x => Differs(x, c)))
  {
    if classes != [] && Distinct(classes) {
      var s' := classes[..|classes| - 1];
      var last := classes[|classes| - 1];
      DistinctFilter(s', c);
      var f := Seqs.Filter(s', x => Differs(x, c));
      assert last !in s';
      assert last !in f;
    }
  }

  /** `element.className`: the classes joined by single spaces. */
  function ClassName(classes: seq<string>): string {
    Text.Join(classes, ' ')
  }

  /** Comparing `className` with one class name is asking whether that is
      the only class. */
  lemma ClassNameIsSingle(classes: seq<string>, c: string)
    requires Tokens(classes) && IsToken(c)
    ensures ClassName(classes) == c <==> classes == [c]
  {
    if |classes| >= 2 {
      assert ' ' in ClassName(classes);
    }
  }

  /** A `<li>` element: its text and its class list. */
  datatype ListItem = ListItem(text: string, classes: seq<string>)
}

=== FILE: src/js.dfy ===
/** The primitive JavaScript values loosely-typed records carry, with the
    two coercions the source applies to them: `Boolean(v)` and `String(v)`. */
module Js {
  import Text

  /** A primitive JavaScript value. Numbers are restricted to integers. */
  datatype JsValue = Undefined | Null | Bool(b: bool) | Num(n: int) | Str(s: string)

  /** `v` is `null` or `undefined`, the values `??` replaces. */
  predicate Nullish(v: JsValue) {
    v.Undefined? || v.Null?
  }

  /** `Boolean(v)`: JavaScript truthiness. Exactly the falsy values
      `undefined`, `null`, `false`, `0` and `""` give `false`. */
  function Truthy(v: JsValue): (r: bool)
    ensures !r <==> v in {Undefined, Null, Bool(false), Num(0), Str("")}
  {
    match v
    case Undefined => false
    case Null => false
    case Bool(b) => b
    case Num(n) => n != 0
    case Str(s) => s != ""
  }

  /** `String(v)`. A string is itself; an integer is written in decimal,
      with a leading `-` exactly when it is negative, and its digits read
      back to its magnitude. */
  function ToStr(v: JsValue): (r: string)
    ensures v.Undefined? ==> r == "undefined"
    ensures v.Null? ==> r == "null"
    ensures v.Bool? ==> (r == "true" <==> v.b) && (r == "false" <==> !v.b)
    ensures v.Str? ==> r == v.s
    ensures v.Num? ==> r != "" && (r[0] == '-' <==> v.n < 0)
    ensures v.Num? ==>
      var digits := if v.n < 0 then r[1..] else r;
      && digits != ""
      && (|digits| > 1 ==> digits[0] != '0')
      && (forall i :: 0 <= i < |digits| ==> Text.IsDigit(digits[i]))
      && Text.DecimalValue(digits) == (if v.n < 0 then -v.n else v.n)
  {
    match v
    case Undefined => "undefined"
    case Null => "null"
    case Bool(b) => if b then "true" else "false"
    case Num(n) =>
      var m: nat := if n < 0 then -n else n;
      Text.DecimalRoundTrip(m);
      Text.IntToDecimal(n)
    case Str(s) => s
  }

  /** A number is truthy exactly when `String` does not write it as "0". */
  lemma TruthyNumberIffNotZeroText(n: int)
    ensures Truthy(Num(n)) <==> ToStr(Num(n)) != "0"
  {
  }

  /** `String(v ?? fallback)`: the fallback for a nullish value, otherwise
      the value's string form. */
  function StrOr(v: JsValue, fallback: string): (r: string)
    ensures Nullish(v) ==> r == fallback
    ensures v.Str? ==> r == v.s
    ensures v.Num? ==> r == Text.IntToDecimal(v.n)
    ensures v.Bool? ==> (r == "true" <==> v.b)
  {
    if Nullish(v) then fallback else ToStr(v)
  }
}

=== FILE: src/products.dfy ===
/** The product table of the "thinking in React" exercise: the loosely-typed
    product records are sanitised, then filtered by name and stock and laid
    out as rows, with a category header wherever the category changes. */
module Products {
  import opened Wrappers
  import opened Js
  import Text
  import Seqs

  // ---------------------------------------------------------------------
  // Sanitising
  // ---------------------------------------------------------------------

  /** A raw product as found in the data: `Missing` is a `null` or
      `undefined` entry, on which every optional-chained field reads as
      `undefined`. */
  datatype RawProduct =
    | Missing
    | Record(name: JsValue, price: JsValue, stocked: JsValue, category: JsValue)

  /** A sanitised product: every displayed field is a string or a boolean,
      and the raw record is kept alongside. */
  datatype Product = Product(name: string, priceText: string, stocked: bool, category: string, raw: RawProduct)

  function NameOf(p: RawProduct): JsValue { if p.Missing? then Undefined else p.name }
  function PriceOf(p: RawProduct): JsValue { if p.Missing? then Undefined else p.price }
  function StockedOf(p: RawProduct): JsValue { if p.Missing? then Undefined else p.stocked }
  function CategoryOf(p: RawProduct): JsValue { if p.Missing? then Undefined else p.category }

  /** One record of `sanitizeProducts`: an absent name, price or category
      becomes "Unnamed", "NA" or "Uncategorized"; present values keep their
      string form; `stocked` is the truthiness of the raw value. */
  function Sanitize(p: RawProduct): (q: Product)
    ensures Nullish(NameOf(p)) ==> q.name == "Unnamed"
    ensures Nullish(PriceOf(p)) ==> q.priceText == "NA"
    ensures Nullish(CategoryOf(p)) ==> q.category == "Uncategorized"
    ensures !Nullish(NameOf(p)) ==> q.name == ToStr(NameOf(p))
    ensures !Nullish(PriceOf(p)) ==> q.priceText == ToStr(PriceOf(p))
    ensures !Nullish(CategoryOf(p)) ==> q.category == ToStr(CategoryOf(p))
    ensures q.stocked <==> Truthy(StockedOf(p))
    ensures p.Missing? ==> q == Product("Unnamed", "NA", false, "Uncategorized", Missing)
    ensures q.raw == p
  {
    Product(
      StrOr(NameOf(p), "Unnamed"),
      StrOr(PriceOf(p), "NA"),
      Truthy(StockedOf(p)),
      StrOr(CategoryOf(p), "Uncategorized"),
      p)
  }

  /** `sanitizeProducts`: a `null`/`undefined` list sanitises to the empty
      list; otherwise every record is sanitised, position by position. */
  function SanitizeProducts(products: Option<seq<RawProduct>>): (r: seq<Product>)
    ensures products.None? ==> r == []
    ensures products.Some? ==> |r| == |products.value|
    ensures products.Some? ==> forall i :: 0 <= i < |r| ==> r[i].raw == products.value[i]
    ensures products.Some? ==> forall i :: 0 <= i < |r| ==> r[i] == Sanitize(products.value[i])
  {
    match products
    case None => []
    case Some(ps) => seq(|ps|, i requires 0 <= i < |ps| => Sanitize(ps[i]))
  }

  /** A sanitised product written back as a raw record with string and
      boolean fields. */
  function Unsanitize(q: Product): RawProduct {
    Record(Str(q.name), Str(q.priceText), Bool(q.stocked), Str(q.category))
  }

  /** Clean records pass through sanitising unchanged: sanitising is the
      identity on the displayed fields of already-sanitised products, so
      sanitising twice is sanitising once. */
  lemma SanitizeClean(q: Product)
    ensures var q' := Sanitize(Unsanitize(q));
      q'.name == q.name && q'.priceText == q.priceText &&
      q'.stocked == q.stocked && q'.category == q.category
  {
  }

  lemma SanitizeTwice(p: RawProduct)
    ensures var q := Sanitize(p); var q' := Sanitize(Unsanitize(q));
      q'.name == q.name && q'.priceText == q.priceText &&
      q'.stocked == q.stocked && q'.category == q.category
  {
    SanitizeClean(Sanitize(p));
  }

  /** The three malformed records of the sample data and what they become:
      a missing name, a `null` category with a numeric price, and a `null`
      price with a numeric `stocked` flag. */
  lemma SampleMalformedRecords()
    ensures Sanitize(Record(Undefined, Str("$1.00"), Str("true"), Str("Fruits")))
      == Product("Unnamed", "$1.00", true, "Fruits", Record(Undefined, Str("$1.00"), Str("true"), Str("Fruits")))
    ensures Sanitize(Record(Str("Potato"), Num(3), Undefined, Null))
      == Product("Potato", "3", false, "Uncategorized", Record(Str("Potato"), Num(3), Undefined, Null))
    ensures Sanitize(Record(Str("Tomato"), Null, Num(1), Str("Vegetables")))
      == Product("Tomato", "NA", true, "Vegetables", Record(Str("Tomato"), Null, Num(1), Str("Vegetables")))
  {
  }

  // ---------------------------------------------------------------------
  // Filtering
  // ---------------------------------------------------------------------

  /** The test `ProductTable` applies: the lower-cased name contains the
      lower-cased filter text, and the product is in stock when only stocked
      products are asked for. */
  predicate Shown(p: Product, filterText: string, inStockOnly: bool) {
    Text.IndexOf(Text.Lower(p.name), Text.Lower(filterText)) != -1 && !(inStockOnly && !p.stocked)
  }

  /** The products that make it into the table, in input order. */
  function Kept(products: seq<Product>, filterText: string, inStockOnly: bool): seq<Product> {
    Seqs.Filter(products, p => Shown(p, filterText, inStockOnly))
  }

  /** What `Shown` means, independently of how it is computed. */
  lemma ShownMeans(p: Product, filterText: string, inStockOnly: bool)
    ensures Shown(p, filterText, inStockOnly) <==>
      Text.Contains(Text.Lower(p.name), Text.Lower(filterText)) && (inStockOnly ==> p.stocked)
  {
  }

  /** Visiting one more product keeps it exactly when it is shown. */
  lemma KeptSnoc(products: seq<Product>, p: Product, filterText: string, inStockOnly: bool)
    ensures Kept(products + [p], filterText, inStockOnly)
      == Kept(products, filterText, inStockOnly) + (if Shown(p, filterText, inStockOnly) then [p] else [])
  {
    Seqs.FilterSnoc(products, p, q => Shown(q, filterText, inStockOnly));
  }

  /** A product of the input is kept exactly when it passes the name and
      stock tests. */
  lemma KeptPass(products: seq<Product>, filterText: string, inStockOnly: bool)
    ensures forall p :: p in Kept(products, filterText, inStockOnly) ==>
      Text.Contains(Text.Lower(p.name), Text.Lower(filterText)) && (inStockOnly ==> p.stocked)
    ensures forall p :: p in products ==>
      (p in Kept(products, filterText, inStockOnly) <==>
        Text.Contains(Text.Lower(p.name), Text.Lower(filterText)) && (inStockOnly ==> p.stocked))
  {
    var keep := q => Shown(q, filterText, inStockOnly);
    forall p | p in Kept(products, filterText, inStockOnly)
      ensures Text.Contains(Text.Lower(p.name), Text.Lower(filterText)) && (inStockOnly ==> p.stocked)
    {
      ShownMeans(p, filterText, inStockOnly);
    }
    forall p | p in products
      ensures p in Kept(products, filterText, inStockOnly) <==>
        Text.Contains(Text.Lower(p.name), Text.Lower(filterText)) && (inStockOnly ==> p.stocked)
    {
      ShownMeans(p, filterText, inStockOnly);
      Seqs.FilterCount(products, keep, p);
      assert multiset(products)[p] > 0;
      assert p in Kept(products, filterText, inStockOnly) <==> multiset(Kept(products, filterText, inStockOnly))[p] > 0;
    }
  }

  /** One more visited product: the kept prefix grows by that product exactly
      when it is shown. */
  lemma KeptStep(products: seq<Product>, i: int, filterText: string, inStockOnly: bool)
    requires 0 <= i < |products|
    ensures Kept(products[..i + 1], filterText, inStockOnly)
      == Kept(products[..i], filterText, inStockOnly) + (if Shown(products[i], filterText, inStockOnly) then [products[i]] else [])
  {
    assert products[..i + 1] == products[..i] + [products[i]];
    KeptSnoc(products[..i], products[i], filterText, inStockOnly);
  }

  /** With no filter text and every stock state allowed, every product is kept. */
  lemma UnfilteredKeepsAll(products: seq<Product>)
    ensures Kept(products, "", false) == products
  {
    forall i | 0 <= i < |products| ensures Shown(products[i], "", false) {
      Text.EmptyOccurs(Text.Lower(products[i].name));
    }
    Seqs.FilterAll(products, p => Shown(p, "", false));
  }

  // ---------------------------------------------------------------------
  // Row layout
  // ---------------------------------------------------------------------

  /** A table row: a category header or a product. */
  datatype Row = CategoryRow(category: string) | ProductRow(product: Product)

  /** The products of the product rows, in order. */
  function ProductsOf(rows: seq<Row>): (ps: seq<Product>)
    ensures |ps| <= |rows|
  {
    if rows == [] then []
    else
      var last := rows[|rows| - 1];
      ProductsOf(rows[..|rows| - 1]) + (if last.ProductRow? then [last.product] else [])
  }

  /** The number of category header rows. */
  function HeaderCount(rows: seq<Row>): nat {
    if rows == [] then 0
    else HeaderCount(rows[..|rows| - 1]) + (if rows[|rows| - 1].CategoryRow? then 1 else 0)
  }

  /** A product of category `c` following the products `before` starts a new
      group: it is the first, or its predecessor's category differs. */
  predicate StartsGroup(before: seq<Product>, c: string) {
    before == [] || before[|before| - 1].category != c
  }

  /** The number of category groups: how many products start a new group. */
  function GroupCount(ps: seq<Product>): nat {
    if ps == [] then 0
    else GroupCount(ps[..|ps| - 1]) + (if StartsGroup(ps[..|ps| - 1], ps[|ps| - 1].category) then 1 else 0)
  }

  /** Every header is immediately followed by a product of its category. */
  ghost predicate HeadersLeadGroups(rows: seq<Row>) {
    forall k :: 0 <= k < |rows| && rows[k].CategoryRow? ==>
      k + 1 < |rows| && rows[k + 1].ProductRow? && rows[k + 1].product.category == rows[k].category
  }

  /** A product row has a header immediately before it exactly when it
      starts a new group among the products above it. */
  ghost predicate HeaderIffNewGroup(rows: seq<Row>) {
    forall k :: 0 <= k < |rows| && rows[k].ProductRow? ==>
      ((k > 0 && rows[k - 1].CategoryRow?) <==> StartsGroup(ProductsOf(rows[..k]), rows[k].product.category))
  }

  lemma HeaderIffAt(rows: seq<Row>, k: int)
    requires HeaderIffNewGroup(rows)
    requires 0 <= k < |rows| && rows[k].ProductRow?
    ensures (k > 0 && rows[k - 1].CategoryRow?) <==> StartsGroup(ProductsOf(rows[..k]), rows[k].product.category)
  {
  }

  /** The rows `ProductTable` appends for one kept product. */
  function Block(lastCategory: Option<string>, p: Product): seq<Row> {
    (if lastCategory != Some(p.category) then [CategoryRow(p.category)] else []) + [ProductRow(p)]
  }

  lemma ProductsOfAppend(rows: seq<Row>, more: seq<Row>)
    ensures ProductsOf(rows + more) == ProductsOf(rows) + ProductsOf(more)
    decreases |more|
  {
    if more != [] {
      var m' := more[..|more| - 1];
      assert rows + more == (rows + m') + [more[|more| - 1]];
      assert (rows + more)[..|rows + more| - 1] == rows + m';
      ProductsOfAppend(rows, m');
    } else {
      assert rows + more == rows;
    }
  }

  lemma HeaderCountAppend(rows: seq<Row>, more: seq<Row>)
    ensures HeaderCount(rows + more) == HeaderCount(rows) + HeaderCount(more)
    decreases |more|
  {
    if more != [] {
      var m' := more[..|more| - 1];
      assert rows + more == (rows + m') + [more[|more| - 1]];
      assert (rows + more)[..|rows + more| - 1] == rows + m';
      HeaderCountAppend(rows, m');
    } else {
      assert rows + more == rows;
    }
  }

  /** `lastCategory` holds the category of the last product row so far. */
  predicate TracksLast(rows: seq<Row>, lastCategory: Option<string>) {
    var ps := ProductsOf(rows);
    lastCategory == if ps == [] then None else Some(ps[|ps| - 1].category)
  }

  /** The rows of one block: a header exactly when the product starts a new
      group, then the product. */
  lemma BlockShape(rows: seq<Row>, lastCategory: Option<string>, p: Product)
    requires TracksLast(rows, lastCategory)
    ensures StartsGroup(ProductsOf(rows), p.category) ==> Block(lastCategory, p) == [CategoryRow(p.category), ProductRow(p)]
    ensures !StartsGroup(ProductsOf(rows), p.category) ==> Block(lastCategory, p) == [ProductRow(p)]
  {
  }

  lemma BlockProducts(rows: seq<Row>, lastCategory: Option<string>, p: Product)
    requires TracksLast(rows, lastCategory)
    ensures ProductsOf(rows + Block(lastCategory, p)) == ProductsOf(rows) + [p]
    ensures TracksLast(rows + Block(lastCategory, p), Some(p.category))
  {
    var b := Block(lastCategory, p);
    BlockShape(rows, lastCategory, p);
    ProductsOfAppend(rows, b);
    assert b[..|b| - 1] == [] || b[..|b| - 1] == [CategoryRow(p.category)];
    if |b| == 2 { assert b[..1][..0] == []; }
    assert ProductsOf(b) == [p];
  }

  lemma BlockHeaderCount(rows: seq<Row>, lastCategory: Option<string>, p: Product)
    requires TracksLast(rows, lastCategory)
    requires HeaderCount(rows) == GroupCount(ProductsOf(rows))
    ensures HeaderCount(rows + Block(lastCategory, p)) == GroupCount(ProductsOf(rows) + [p])
  {
    var b := Block(lastCategory, p);
    var ps := ProductsOf(rows);
    BlockShape(rows, lastCategory, p);
    HeaderCountAppend(rows, b);
    if |b| == 2 {
      assert b[..1] == [CategoryRow(p.category)] && b[..1][..0] == [];
      assert HeaderCount(b[..1]) == 1;
    } else {
      assert b[..0] == [];
    }
    assert (ps + [p])[..|ps|] == ps;
  }

  lemma BlockHeadersLead(rows: seq<Row>, lastCategory: Option<string>, p: Product)
    requires TracksLast(rows, lastCategory)
    requires HeadersLeadGroups(rows)
    ensures HeadersLeadGroups(rows + Block(lastCategory, p))
  {
    BlockShape(rows, lastCategory, p);
    // the last old row is a product row, so old headers keep their successor
    if rows != [] {
      assert !rows[|rows| - 1].CategoryRow?;
    }
  }

  lemma BlockHeaderIff(rows: seq<Row>, lastCategory: Option<string>, p: Product)
    requires TracksLast(rows, lastCategory)
    requires HeadersLeadGroups(rows) && HeaderIffNewGroup(rows)
    ensures HeaderIffNewGroup(rows + Block(lastCategory, p))
  {
    var b := Block(lastCategory, p);
    var rows' := rows + b;
    var before := ProductsOf(rows);
    BlockShape(rows, lastCategory, p);
    if rows != [] {
      assert !rows[|rows| - 1].CategoryRow?;
    }
    forall k | 0 <= k < |rows'| && rows'[k].ProductRow?
      ensures (k > 0 && rows'[k - 1].CategoryRow?) <==> StartsGroup(ProductsOf(rows'[..k]), rows'[k].product.category)
    {
      if k < |rows| {
        OldRowIff(rows, b, k);
      } else {
        assert |b| == 2 ==> rows'[|rows|] == CategoryRow(p.category);
        assert k == |rows'| - 1;
        NewRowIff(rows, lastCategory, p, rows', k);
      }
    }
  }

  /** The product row a block ends with has a header right before it
      exactly when it starts a new group. */
  lemma NewRowIff(rows: seq<Row>, lastCategory: Option<string>, p: Product, rows': seq<Row>, k: int)
    requires TracksLast(rows, lastCategory) && HeadersLeadGroups(rows)
    requires rows' == rows + Block(lastCategory, p) && k == |rows'| - 1
    ensures rows'[k] == ProductRow(p)
    ensures (k > 0 && rows'[k - 1].CategoryRow?) <==> StartsGroup(ProductsOf(rows'[..k]), p.category)
  {
    BlockShape(rows, lastCategory, p);
    if StartsGroup(ProductsOf(rows), p.category) {
      assert rows'[..|rows'| - 1] == rows + [CategoryRow(p.category)];
      HeaderAddsNoProduct(rows, p.category);
    } else {
      assert rows'[..|rows'| - 1] == rows;
      if rows != [] {
        assert !rows[|rows| - 1].CategoryRow?;
      }
    }
  }

  lemma OldRowIff(rows: seq<Row>, b: seq<Row>, k: int)
    requires HeaderIffNewGroup(rows)
    requires 0 <= k < |rows| && rows[k].ProductRow?
    ensures (k > 0 && (rows + b)[k - 1].CategoryRow?) <==> StartsGroup(ProductsOf((rows + b)[..k]), (rows + b)[k].product.category)
  {
    assert (rows + b)[..k] == rows[..k];
    HeaderIffAt(rows, k);
  }

  /** A header row adds no product. */
  lemma HeaderAddsNoProduct(rows: seq<Row>, c: string)
    ensures ProductsOf(rows + [CategoryRow(c)]) == ProductsOf(rows)
  {
    var r := rows + [CategoryRow(c)];
    assert r[..|r| - 1] == rows;
  }

  /** The layout invariants of the row list built so far. */
  ghost predicate WellLaidOut(rows: seq<Row>, lastCategory: Option<string>) {
    && TracksLast(rows, lastCategory)
    && HeadersLeadGroups(rows)
    && HeaderIffNewGroup(rows)
    && HeaderCount(rows) == GroupCount(ProductsOf(rows))
  }

  /** Appending the rows of one more kept product keeps the layout
      invariants and adds exactly that product. */
  lemma BlockKeepsLayout(rows: seq<Row>, lastCategory: Option<string>, p: Product)
    requires WellLaidOut(rows, lastCategory)
    ensures ProductsOf(rows + Block(lastCategory, p)) == ProductsOf(rows) + [p]
    ensures WellLaidOut(rows + Block(lastCategory, p), Some(p.category))
  {
    BlockProducts(rows, lastCategory, p);
    BlockHeaderCount(rows, lastCategory, p);
    BlockHeadersLead(rows, lastCategory, p);
    BlockHeaderIff(rows, lastCategory, p);
  }

  /** `ProductTable`'s row construction. Products are visited in order; a
      product failing the name or stock test is skipped; a kept product gets
      a category header first when its category differs from the previous
      kept product's (the first kept product always gets one). */
  method ProductTable(products: seq<Product>, filterText: string, inStockOnly: bool) returns (rows: seq<Row>)
    ensures ProductsOf(rows) == Kept(products, filterText, inStockOnly)
    ensures HeadersLeadGroups(rows)
    ensures HeaderIffNewGroup(rows)
    ensures HeaderCount(rows) == GroupCount(ProductsOf(rows))
  {
    rows := [];
    var lastCategory: Option<string> := None;
    var i := 0;
    while i < |products|
      invariant 0 <= i <= |products|
      invariant ProductsOf(rows) == Kept(products[..i], filterText, inStockOnly)
      invariant WellLaidOut(rows, lastCategory)
    {
      var product := products[i];
      ghost var shown := Shown(product, filterText, inStockOnly);
      KeptStep(products, i, filterText, inStockOnly);
      var nameLower := Text.Lower(product.name);
      if Text.IndexOf(nameLower, Text.Lower(filterText)) == -1 {
        assert !shown;
      } else if inStockOnly && !product.stocked {
        assert !shown;
      } else {
        assert shown;
        BlockKeepsLayout(rows, lastCategory, product);
        rows := rows + Block(lastCategory, product);
        lastCategory := Some(product.category);
      }
      i := i + 1;
    }
    assert products[..i] == products;
  }

  /** The rows hold only products that pass the name and stock tests, and
      with no filter at all they hold every product, in order. */
  lemma ProductTableRowsPass(products: seq<Product>, filterText: string, inStockOnly: bool, rows: seq<Row>)
    requires ProductsOf(rows) == Kept(products, filterText, inStockOnly)
    ensures forall p :: p in ProductsOf(rows) ==>
      Text.Contains(Text.Lower(p.name), Text.Lower(filterText)) && (inStockOnly ==> p.stocked)
    ensures filterText == "" && !inStockOnly ==> ProductsOf(rows) == products
  {
    KeptPass(products, filterText, inStockOnly);
    if filterText == "" && !inStockOnly {
      UnfilteredKeepsAll(products);
    }
  }
}

=== FILE: src/seqs.dfy ===
/** Order-preserving filtering (JavaScript's `Array.prototype.filter`) and
    key uniqueness over sequences of records. */
module Seqs {

  /** The elements of `s` satisfying `keep`, in their original order. Defined
      from the back so that it grows one element at a time, as a left-to-right
      `forEach` or `filter` does. */
  function Filter<T>(s: seq<T>, keep: T -> bool): (r: seq<T>)
    ensures |r| <= |s|
    ensures forall x :: x in r ==> x in s && keep(x)
  {
    if s == [] then []
    else Filter(s[..|s| - 1], keep) + (if keep(s[|s| - 1]) then [s[|s| - 1]] else [])
  }

  /** Filtering one more element appends it exactly when it is kept. */
  lemma FilterSnoc<T>(s: seq<T>, x: T, keep: T -> bool)
    ensures Filter(s + [x], keep) == Filter(s, keep) + (if keep(x) then [x] else [])
  {
    assert (s + [x])[..|s + [x]| - 1] == s;
  }

  /** Filtering distributes over concatenation, so the kept elements of an
      earlier part always come before those of a later part. */
  lemma {:induction false} FilterAppend<T>(a: seq<T>, b: seq<T>, keep: T -> bool)
    ensures Filter(a + b, keep) == Filter(a, keep) + Filter(b, keep)
    decreases |b|
  {
    if b == [] {
      assert a + b == a;
    } else {
      var b' := b[..|b| - 1];
      var x := b[|b| - 1];
      var tail := if keep(x) then [x] else [];
      assert b == b' + [x];
      assert a + b == (a + b') + [x];
      calc {
        Filter(a + b, keep);
        { FilterSnoc(a + b', x, keep); }
        Filter(a + b', keep) + tail;
        { FilterAppend(a, b', keep); }
        Filter(a, keep) + Filter(b', keep) + tail;
        { FilterSnoc(b', x, keep); }
        Filter(a, keep) + Filter(b, keep);
      }
    }
  }

  /** Every kept value occurs as often as in the input; every other value
      not at all. So each kept element appears exactly once per occurrence. */
  lemma {:induction false} FilterCount<T>(s: seq<T>, keep: T -> bool, x: T)
    ensures multiset(Filter(s, keep))[x] == if keep(x) then multiset(s)[x] else 0
  {
    if s != [] {
      var s' := s[..|s| - 1];
      assert s == s' + [s[|s| - 1]];
      FilterCount(s', keep, x);
    }
  }

  /** When every element is kept, filtering changes nothing. */
  lemma {:induction false} FilterAll<T>(s: seq<T>, keep: T -> bool)
    requires forall i :: 0 <= i < |s| ==> keep(s[i])
    ensures Filter(s, keep) == s
  {
    if s != [] {
      var s' := s[..|s| - 1];
      assert forall i :: 0 <= i < |s'| ==> s'[i] == s[i];
      FilterAll(s', keep);
      assert s == s' + [s[|s| - 1]];
    }
  }

  /** Filtering by a weaker test first changes nothing: when everything
      `strong` keeps `weak` keeps too, filtering by `weak` and then by
      `strong` is filtering by `strong`. */
  lemma {:induction false} FilterFilter<T>(s: seq<T>, weak: T -> bool, strong: T -> bool)
    requires forall x :: strong(x) ==> weak(x)
    ensures Filter(Filter(s, weak), strong) == Filter(s, strong)
  {
    if s != [] {
      var s' := s[..|s| - 1];
      var x := s[|s| - 1];
      FilterFilter(s', weak, strong);
      assert s == s' + [x];
      FilterSnoc(s', x, weak);
      FilterSnoc(s', x, strong);
      if weak(x) {
        FilterSnoc(Filter(s', weak), x, strong);
      } else {
        assert Filter(s, weak) == Filter(s', weak);
      }
    }
  }

  /** No two records of `s` share a key. */
  predicate UniqueKeys<T>(s: seq<T>, key: T -> int) {
    forall i, j :: 0 <= i < j < |s| ==> key(s[i]) != key(s[j])
  }

  /** Filtering keeps keys unique: it only drops records. */
  lemma {:induction false} FilterKeepsUnique<T>(s: seq<T>, keep: T -> bool, key: T -> int)
    requires UniqueKeys(s, key)
    ensures UniqueKeys(Filter(s, keep), key)
  {
    if s != [] {
      var s' := s[..|s| - 1];
      var x := s[|s| - 1];
      FilterKeepsUnique(s', keep, key);
      var f := Filter(s', keep);
      if keep(x) {
        forall y | y in f ensures key(y) != key(x) {
          var i :| 0 <= i < |s'| && s'[i] == y;
          assert s[i] == y;
        }
        var r := f + [x];
        forall i, j | 0 <= i < j < |r| ensures key(r[i]) != key(r[j]) {
          if j == |f| { assert r[i] in f; }
        }
      }
    }
  }

  /** Appending a record whose key is new keeps keys unique. */
  lemma AppendFreshKeepsUnique<T>(s: seq<T>, x: T, key: T -> int)
    requires UniqueKeys(s, key)
    requires forall i :: 0 <= i < |s| ==> key(s[i]) != key(x)
    ensures UniqueKeys(s + [x], key)
  {
  }
}

=== FILE: src/student_form.dfy ===
/** The `StudentForm` page: the validation schema, the default values, the
    student load in edit mode, and the submit dispatch. Request outcomes
    are inputs; the e-mail pattern is a parameter. */
module StudentForm {
  import opened Wrappers
  import opened Api
  import opened Students
  import Text

  // ---------------------------------------------------------------------
  // Form values and the validation schema
  // ---------------------------------------------------------------------

  /** The form's values. A text field or number is `None` when its value is
      `null` or `undefined`; the form's own defaults and a loaded `Student`
      always fill every field, so `None` only reaches the schema from a
      caller that supplies such a value. */
  datatype FormValues = FormValues(
    firstName: Option<string>,
    lastName: Option<string>,
    email: Option<string>,
    phoneNumber: Option<string>,
    department: Option<string>,
    year: Option<real>,
    gpa: Option<real>,
    isActive: bool)

  /** The form's initial values. */
  const Defaults := FormValues(Some(""), Some(""), Some(""), Some(""), Some(""), Some(1.0), Some(0.0), true)

  datatype Field = FirstName | LastName | Email | PhoneNumber | Department | Year | Gpa

  /** The schema test a field failed. */
  datatype Rule = Required | MaxLength | EmailFormat | Min | Max

  datatype FieldError = FieldError(field: Field, rule: Rule)

  /** `string().required()`, with `.max(n)` when `maxLength` is given: the
      value must be present and non-empty, and its JavaScript `length`
      (UTF-16 code units) no greater than the bound. An absent or empty
      value fails `required` before the length is looked at. */
  function CheckString(v: Option<string>, maxLength: Option<nat>): (r: Option<Rule>)
    ensures r.None? <==> v.Some? && v.value != "" && (maxLength.Some? ==> Text.Utf16Length(v.value) <= maxLength.value)
    ensures r == Some(Required) <==> v.None? || v.value == ""
    ensures r == Some(MaxLength) <==>
      v.Some? && v.value != "" && maxLength.Some? && Text.Utf16Length(v.value) > maxLength.value
    ensures r.Some? ==> r.value == Required || r.value == MaxLength
  {
    if v.None? || v.value == "" then Some(Required)
    else if maxLength.Some? && Text.Utf16Length(v.value) > maxLength.value then Some(MaxLength)
    else None
  }

  /** `string().email().required()`: present, non-empty, and of e-mail shape. */
  function CheckEmail(v: Option<string>, isEmail: string -> bool): (r: Option<Rule>)
    ensures r.None? <==> v.Some? && v.value != "" && isEmail(v.value)
    ensures r == Some(Required) <==> v.None? || v.value == ""
    ensures r == Some(EmailFormat) <==> v.Some? && v.value != "" && !isEmail(v.value)
  {
    if v.None? || v.value == "" then Some(Required)
    else if !isEmail(v.value) then Some(EmailFormat)
    else None
  }

  /** `number().required().min(lo).max(hi)`. */
  function CheckNumber(v: Option<real>, lo: real, hi: real): (r: Option<Rule>)
    ensures r.None? <==> v.Some? && lo <= v.value <= hi
    ensures r == Some(Required) <==> v.None?
    ensures r == Some(Min) <==> v.Some? && v.value < lo
    ensures r == Some(Max) <==> v.Some? && lo <= v.value && v.value > hi
  {
    if v.None? then Some(Required)
    else if v.value < lo then Some(Min)
    else if v.value > hi then Some(Max)
    else None
  }

  /** The test the schema runs on field `f`. */
  function Check(f: Field, v: FormValues, isEmail: string -> bool): Option<Rule> {
    match f
    case FirstName => CheckString(v.firstName, Some(50))
    case LastName => CheckString(v.lastName, Some(50))
    case Email => CheckEmail(v.email, isEmail)
    case PhoneNumber => CheckString(v.phoneNumber, None)
    case Department => CheckString(v.department, None)
    case Year => CheckNumber(v.year, 1.0, 4.0)
    case Gpa => CheckNumber(v.gpa, 0.0, 4.0)
  }

  /** The schema's fields, in declaration order. */
  const SchemaFields := [FirstName, LastName, Email, PhoneNumber, Department, Year, Gpa]

  /** The errors of the fields `fs`, one per failing field, in order. */
  function CheckAll(fs: seq<Field>, v: FormValues, isEmail: string -> bool): seq<FieldError> {
    if fs == [] then []
    else
      var r := Check(fs[0], v, isEmail);
      (if r.Some? then [FieldError(fs[0], r.value)] else []) + CheckAll(fs[1..], v, isEmail)
  }

  /** The schema's verdict: one error per failing field, in field order.
      Every error names a schema field and the rule that field breaks;
      `ValidateFlagsExactlyBadFields` shows no failing field is missed. */
  function Validate(v: FormValues, isEmail: string -> bool): (r: seq<FieldError>)
    ensures |r| <= |SchemaFields|
    ensures forall i :: 0 <= i < |r| ==> Check(r[i].field, v, isEmail) == Some(r[i].rule)
    ensures forall i, j :: 0 <= i < j < |r| ==> r[i].field != r[j].field
  {
    CheckAllSound(SchemaFields, v, isEmail);
    CheckAll(SchemaFields, v, isEmail)
  }

  /** `CheckAll` reports at most one error per field, and each error names
      a listed field together with the rule that field breaks. */
  lemma {:induction false} CheckAllSound(fs: seq<Field>, v: FormValues, isEmail: string -> bool)
    ensures var r := CheckAll(fs, v, isEmail);
      && |r| <= |fs|
      && forall i :: 0 <= i < |r| ==> r[i].field in fs && Check(r[i].field, v, isEmail) == Some(r[i].rule)
    ensures (forall i, j :: 0 <= i < j < |fs| ==> fs[i] != fs[j]) ==>
      var r := CheckAll(fs, v, isEmail);
      forall i, j :: 0 <= i < j < |r| ==> r[i].field != r[j].field
  {
    if fs != [] {
      CheckAllSound(fs[1..], v, isEmail);
      if forall i, j :: 0 <= i < j < |fs| ==> fs[i] != fs[j] {
        assert fs[0] !in fs[1..];
      }
    }
  }

  /** A name the schema accepts: non-empty, at most 50 UTF-16 code units. */
  predicate GoodName(v: Option<string>) { v.Some? && v.value != "" && Text.Utf16Length(v.value) <= 50 }

  /** A required text the schema accepts: non-empty. */
  predicate GoodText(v: Option<string>) { v.Some? && v.value != "" }

  predicate InRange(v: Option<real>, lo: real, hi: real) { v.Some? && lo <= v.value <= hi }

  /** What the schema asks of a record, field by field. */
  predicate Acceptable(v: FormValues, isEmail: string -> bool) {
    && GoodName(v.firstName)
    && GoodName(v.lastName)
    && GoodText(v.email) && isEmail(v.email.value)
    && GoodText(v.phoneNumber)
    && GoodText(v.department)
    && InRange(v.year, 1.0, 4.0)
    && InRange(v.gpa, 0.0, 4.0)
  }

  /** Some error names field `f`. */
  predicate Reported(errors: seq<FieldError>, f: Field) {
    exists e :: e in errors && e.field == f
  }

  lemma {:induction false} CheckAllReports(fs: seq<Field>, v: FormValues, isEmail: string -> bool, f: Field)
    ensures Reported(CheckAll(fs, v, isEmail), f) <==> f in fs && Check(f, v, isEmail).Some?
  {
    if fs != [] {
      CheckAllReports(fs[1..], v, isEmail, f);
      var r := Check(fs[0], v, isEmail);
      var head := if r.Some? then [FieldError(fs[0], r.value)] else [];
      assert CheckAll(fs, v, isEmail) == head + CheckAll(fs[1..], v, isEmail);
      assert f in fs <==> f == fs[0] || f in fs[1..];
      if f == fs[0] && r.Some? {
        assert FieldError(fs[0], r.value) in CheckAll(fs, v, isEmail);
      }
    }
  }

  /** A field is reported exactly when it breaks its rule, so the record is
      accepted exactly when every field meets the schema. */
  lemma ValidateFlagsExactlyBadFields(v: FormValues, isEmail: string -> bool)
    ensures var errs := Validate(v, isEmail);
      && (Reported(errs, FirstName) <==> !GoodName(v.firstName))
      && (Reported(errs, LastName) <==> !GoodName(v.lastName))
      && (Reported(errs, Email) <==> !(GoodText(v.email) && isEmail(v.email.value)))
      && (Reported(errs, PhoneNumber) <==> !GoodText(v.phoneNumber))
      && (Reported(errs, Department) <==> !GoodText(v.department))
      && (Reported(errs, Year) <==> !InRange(v.year, 1.0, 4.0))
      && (Reported(errs, Gpa) <==> !InRange(v.gpa, 0.0, 4.0))
    ensures Validate(v, isEmail) == [] <==> Acceptable(v, isEmail)
  {
    var errs := Validate(v, isEmail);
    forall f ensures Reported(errs, f) <==> Check(f, v, isEmail).Some? {
      CheckAllReports(SchemaFields, v, isEmail, f);
    }
    if errs != [] {
      assert Reported(errs, errs[0].field);
    }
  }

  /** The untouched form is refused: the five text fields are empty and
      reported as required, while the default year and GPA are in range. */
  lemma DefaultsAreRefused(isEmail: string -> bool)
    ensures Validate(Defaults, isEmail) == [
      FieldError(FirstName, Required), FieldError(LastName, Required), FieldError(Email, Required),
      FieldError(PhoneNumber, Required), FieldError(Department, Required)]
  {
    var v := Defaults;
    var tail := CheckAll([Year, Gpa], v, isEmail);
    CheckAllCons(Year, [Gpa], v, isEmail);
    CheckAllCons(Gpa, [], v, isEmail);
    assert Check(Year, v, isEmail).None? && Check(Gpa, v, isEmail).None?;
    assert tail == [];
    CheckAllCons(Department, [Year, Gpa], v, isEmail);
    CheckAllCons(PhoneNumber, [Department, Year, Gpa], v, isEmail);
    CheckAllCons(Email, [PhoneNumber, Department, Year, Gpa], v, isEmail);
    CheckAllCons(LastName, [Email, PhoneNumber, Department, Year, Gpa], v, isEmail);
    CheckAllCons(FirstName, [LastName, Email, PhoneNumber, Department, Year, Gpa], v, isEmail);
    assert SchemaFields == [FirstName] + [LastName, Email, PhoneNumber, Department, Year, Gpa];
  }

  /** `CheckAll` on a field in front of others: that field's error, if any,
      then the others'. */
  lemma CheckAllCons(f: Field, fs: seq<Field>, v: FormValues, isEmail: string -> bool)
    ensures CheckAll([f] + fs, v, isEmail) ==
      (if Check(f, v, isEmail).Some? then [FieldError(f, Check(f, v, isEmail).value)] else []) + CheckAll(fs, v, isEmail)
  {
    assert ([f] + fs)[1..] == fs;
  }

  // ---------------------------------------------------------------------
  // Page state
  // ---------------------------------------------------------------------

  datatype FormState = FormState(editMode: bool, loading: bool, error: Option<string>, values: FormValues)

  /** The page as it mounts: the spinner is on exactly in edit mode. */
  function Mount(editMode: bool): (r: FormState)
    ensures r.loading <==> editMode
    ensures r.error.None? && r.values == Defaults && r.editMode == editMode
  {
    FormState(editMode, editMode, None, Defaults)
  }

  /** The form values `setValue` fills in from a loaded student. */
  function ValuesOf(s: Student): FormValues {
    FormValues(Some(s.firstName), Some(s.lastName), Some(s.email), Some(s.phoneNumber),
               Some(s.department), Some(s.year), Some(s.gpa), s.isActive)
  }

  /** An error raised because the request was aborted as the page went away. */
  predicate Cancelled(e: HttpError) { e.name == "CanceledError" || e.name == "AbortError" }

  /** The edit-mode effect once `getStudent` settles. Outside edit mode the
      effect does nothing. In edit mode the spinner goes off whatever the
      outcome; a loaded student fills the form; a cancellation leaves the
      error as it was; any other failure sets the error through the
      fallback chain ending in "Failed to load student". */
  function LoadStudent(st: FormState, outcome: Outcome<Student, HttpError>): (r: FormState)
    ensures !st.editMode ==> r == st
    ensures st.editMode ==> !r.loading && r.editMode
    ensures st.editMode && outcome.Ok? ==> r.values == ValuesOf(outcome.data) && r.error == st.error
    ensures st.editMode && outcome.Err? ==> r.values == st.values
    ensures st.editMode && outcome.Err? && Cancelled(outcome.error) ==> r.error == st.error
    ensures st.editMode && outcome.Err? && !Cancelled(outcome.error) ==>
      r.error == Some(MessageOr(outcome.error, "Failed to load student"))
  {
    if !st.editMode then st
    else
      match outcome
      case Ok(s) => st.(values := ValuesOf(s), loading := false)
      case Err(e) =>
        if Cancelled(e) then st.(loading := false)
        else st.(error := Some(MessageOr(e, "Failed to load student")), loading := false)
  }

  /** A student loaded from the API that meets the schema can be saved again
      as loaded. */
  lemma LoadedStudentRevalidates(st: FormState, s: Student, isEmail: string -> bool)
    requires st.editMode
    requires s.firstName != "" && Text.Utf16Length(s.firstName) <= 50
    requires s.lastName != "" && Text.Utf16Length(s.lastName) <= 50
    requires s.email != "" && isEmail(s.email) && s.phoneNumber != "" && s.department != ""
    requires 1.0 <= s.year <= 4.0 && 0.0 <= s.gpa <= 4.0
    ensures Validate(LoadStudent(st, Ok(s)).values, isEmail) == []
  {
    ValidateFlagsExactlyBadFields(LoadStudent(st, Ok(s)).values, isEmail);
  }

  // ---------------------------------------------------------------------
  // Submit
  // ---------------------------------------------------------------------

  /** The API call `onSubmit` makes. */
  datatype Request = CreateStudent(payload: FormValues) | UpdateStudent(id: string, payload: FormValues)

  /** The outcome of pressing Save: the new state, the field errors shown,
      the request made, and where the page navigated. */
  datatype SubmitResult = SubmitResult(
    state: FormState,
    fieldErrors: seq<FieldError>,
    request: Option<Request>,
    navigateTo: Option<string>)

  /** `handleSubmit(onSubmit)`: an invalid form shows its field errors and
      sends nothing. A valid one clears the page error, sends an update of
      student `id` in edit mode and a create otherwise, and navigates to "/"
      only once the request succeeded; a failure sets the error through the
      fallback chain ending in "Save failed". */
  function Submit(st: FormState, id: string, isEmail: string -> bool, outcome: Outcome<(), HttpError>): (r: SubmitResult)
    ensures r.request.Some? <==> Acceptable(st.values, isEmail)
    ensures r.request.Some? ==> r.request.value.payload == st.values
    ensures r.request.Some? ==> (r.request.value.UpdateStudent? <==> st.editMode)
    ensures r.request.Some? && st.editMode ==> r.request.value.id == id
    ensures r.navigateTo.Some? <==> r.request.Some? && outcome.Ok?
    ensures r.navigateTo.Some? ==> r.navigateTo.value == "/"
    ensures r.request.None? ==> r.state == st && r.fieldErrors == Validate(st.values, isEmail) && r.fieldErrors != []
    ensures r.request.Some? ==> r.state == st.(error := r.state.error) && r.fieldErrors == []
    ensures r.request.Some? && outcome.Ok? ==> r.state.error.None?
    ensures r.request.Some? && outcome.Err? ==> r.state.error == Some(MessageOr(outcome.error, "Save failed"))
  {
    var errors := Validate(st.values, isEmail);
    ValidateFlagsExactlyBadFields(st.values, isEmail);
    if errors != [] then SubmitResult(st, errors, None, None)
    else
      var request := if st.editMode then UpdateStudent(id, st.values) else CreateStudent(st.values);
      match outcome
      case Ok(_) => SubmitResult(st.(error := None), [], Some(request), Some("/"))
      case Err(e) => SubmitResult(st.(error := Some(MessageOr(e, "Save failed"))), [], Some(request), None)
  }
}

=== FILE: src/students.dfy ===
/** The student record the student-records front end exchanges with its API. */
module Students {

  /** A student as the API returns it. `year` and `gpa` are JavaScript
      numbers; the form only bounds them, so they are reals here. */
  datatype Student = Student(
    id: int,
    firstName: string,
    lastName: string,
    email: string,
    phoneNumber: string,
    department: string,
    year: real,
    gpa: real,
    isActive: bool)

  function IdOf(s: Student): int { s.id }
}

=== FILE: src/students_list.dfy ===
/** The `StudentsList` page: the list is loaded once, a student can be
    deleted after a confirmation, and the page shows a spinner, an error, or
    a table headed by the number of students. Request outcomes are inputs. */
module StudentsList {
  import opened Wrappers
  import opened Api
  import opened Students
  import Seqs
  import Text

  /** The page's four pieces of state. */
  datatype ListState = ListState(
    students: seq<Student>,
    loading: bool,
    error: Option<string>,
    deletingId: Option<int>)

  const Initial := ListState([], true, None, None)

  // ---------------------------------------------------------------------
  // load
  // ---------------------------------------------------------------------

  /** Entering `load`: the spinner is on and any earlier error is cleared. */
  function LoadStart(s: ListState): (r: ListState)
    ensures r.loading && r.error.None?
    ensures r.students == s.students && r.deletingId == s.deletingId
  {
    s.(loading := true, error := None)
  }

  /** `load` once `getStudents` settles: on success the list is replaced by
      the response data; on failure the list stays and the error message
      follows the fallback chain ending in "Failed to load". Either way the
      spinner is off. */
  function LoadSettle(s: ListState, outcome: Outcome<seq<Student>, HttpError>): (r: ListState)
    ensures !r.loading
    ensures r.deletingId == s.deletingId
    ensures outcome.Ok? ==> r.students == outcome.data && r.error == s.error
    ensures outcome.Err? ==> r.students == s.students
    ensures outcome.Err? ==> r.error == Some(MessageOr(outcome.error, "Failed to load"))
  {
    match outcome
    case Ok(data) => s.(students := data, loading := false)
    case Err(e) => s.(error := Some(MessageOr(e, "Failed to load")), loading := false)
  }

  /** A whole `load`: whatever the state before, afterwards the spinner is
      off, and an error is shown exactly when the request failed. */
  function Load(s: ListState, outcome: Outcome<seq<Student>, HttpError>): (r: ListState)
    ensures !r.loading
    ensures r.error.None? <==> outcome.Ok?
    ensures outcome.Ok? ==> r.students == outcome.data
    ensures outcome.Err? ==> r.students == s.students && r.error.value != ""
  {
    LoadSettle(LoadStart(s), outcome)
  }

  // ---------------------------------------------------------------------
  // handleDelete
  // ---------------------------------------------------------------------

  /** The state after `handleDelete` and the alert it raised, if any. */
  datatype DeleteResult = DeleteResult(state: ListState, alert: Option<string>)

  /** The state while `deleteStudent(id)` is in flight. */
  function DeleteStart(s: ListState, id: int): (r: ListState)
    ensures r.deletingId == Some(id)
    ensures r.students == s.students && r.loading == s.loading && r.error == s.error
  {
    s.(deletingId := Some(id))
  }

  predicate Survives(st: Student, id: int) { st.id != id }

  /** How a delete settles once `deleteStudent(id)` answers, with the list
      update applied to the list as it is at that moment: a success removes
      every student with that id and keeps the rest in order, a failure
      leaves the list alone and alerts the server's message or "Delete
      failed"; `deletingId` is cleared either way. */
  function SettleDelete(s: ListState, id: int, outcome: Outcome<(), HttpError>): (r: DeleteResult)
    ensures r.state.deletingId.None?
    ensures r.state.loading == s.loading && r.state.error == s.error
    ensures outcome.Ok? ==> r.alert.None?
    ensures outcome.Ok? ==> forall st :: st in r.state.students ==> st.id != id
    ensures outcome.Ok? ==>
      forall st: Student :: st.id != id ==> multiset(r.state.students)[st] == multiset(s.students)[st]
    ensures outcome.Err? ==> r.state.students == s.students
    ensures outcome.Err? ==> r.alert == Some(ServerMessageOr(outcome.error, "Delete failed"))
  {
    match outcome
    case Ok(_) =>
      var keep := st => Survives(st, id);
      var rest := Seqs.Filter(s.students, keep);
      assert forall st: Student :: multiset(rest)[st] == if keep(st) then multiset(s.students)[st] else 0 by {
        forall st: Student ensures multiset(rest)[st] == if keep(st) then multiset(s.students)[st] else 0 {
          Seqs.FilterCount(s.students, keep, st);
        }
      }
      DeleteResult(s.(students := rest, deletingId := None), None)
    case Err(e) =>
      DeleteResult(s.(deletingId := None), Some(ServerMessageOr(e, "Delete failed")))
  }

  /** `handleDelete(id)` run to completion with nothing else in between. A
      declined confirmation changes nothing; otherwise the delete starts and
      settles as `SettleDelete` says. */
  function HandleDelete(s: ListState, id: int, confirmed: bool, outcome: Outcome<(), HttpError>): (r: DeleteResult)
    ensures !confirmed ==> r.state == s && r.alert.None?
    ensures confirmed ==> r.state.deletingId.None?
    ensures r.state.loading == s.loading && r.state.error == s.error
    ensures confirmed && outcome.Ok? ==> r.alert.None?
    ensures confirmed && outcome.Ok? ==> forall st :: st in r.state.students ==> st.id != id
    ensures confirmed && outcome.Ok? ==>
      forall st: Student :: st.id != id ==> multiset(r.state.students)[st] == multiset(s.students)[st]
    ensures confirmed && outcome.Err? ==> r.state.students == s.students
    ensures confirmed && outcome.Err? ==> r.alert == Some(ServerMessageOr(outcome.error, "Delete failed"))
  {
    if !confirmed then DeleteResult(s, None)
    else SettleDelete(DeleteStart(s, id), id, outcome)
  }

  /** How a delete settles in the page as written: on success the list
      becomes the handler's own copy of `students` — the list as it was
      rendered when the button was clicked — minus that id, whatever the list
      has become since. The failure path is the same as `SettleDelete`'s. */
  function SettleDeleteAsWritten(s: ListState, captured: seq<Student>, id: int, outcome: Outcome<(), HttpError>): (r: DeleteResult)
    ensures r.state.deletingId.None?
    ensures r.state.loading == s.loading && r.state.error == s.error
    ensures outcome.Ok? ==> r.alert.None?
    ensures outcome.Ok? ==> forall st :: st in r.state.students <==> st in captured && st.id != id
    ensures outcome.Ok? ==>
      forall st: Student :: st.id != id ==> multiset(r.state.students)[st] == multiset(captured)[st]
    ensures outcome.Err? ==> r.state.students == s.students
    ensures outcome.Err? ==> r.alert == Some(ServerMessageOr(outcome.error, "Delete failed"))
  {
    match outcome
    case Ok(_) =>
      var keep := st => Survives(st, id);
      var rest := Seqs.Filter(captured, keep);
      assert forall st: Student :: multiset(rest)[st] == if keep(st) then multiset(captured)[st] else 0 by {
        forall st: Student ensures multiset(rest)[st] == if keep(st) then multiset(captured)[st] else 0 {
          Seqs.FilterCount(captured, keep, st);
        }
      }
      assert forall st :: st in rest <==> st in captured && st.id != id by {
        forall st ensures st in rest <==> st in captured && st.id != id {
          assert st in rest <==> multiset(rest)[st] > 0;
        }
      }
      DeleteResult(s.(students := rest, deletingId := None), None)
    case Err(e) =>
      DeleteResult(s.(deletingId := None), Some(ServerMessageOr(e, "Delete failed")))
  }

  /** While student `id`'s delete is in flight, only the rows with that id
      have their button disabled; every other row can start a delete. */
  lemma OnlyDeletedRowDisabled(s: ListState, id: int)
    requires !s.loading && Blank(s.error)
    ensures var v := Render(DeleteStart(s, id));
      v.TableView? && forall i :: 0 <= i < |s.students| ==> (v.rows[i].deleteDisabled <==> s.students[i].id == id)
  {
  }

  /** Two deletes overlap: the second button is clicked while the first
      request is in flight (only the first row's button is disabled), so both
      handlers hold the same `students`. When both succeed, the second
      settle writes back the list minus the second id only, and the first
      deleted student reappears. */
  lemma OverlappingDeletesAsWrittenRestore()
    ensures var a := Student(1, "Ada", "Lovelace", "ada@example.org", "1", "Maths", 1.0, 4.0, true);
      var b := Student(2, "Alan", "Turing", "alan@example.org", "2", "Maths", 2.0, 4.0, true);
      var s := ListState([a, b], false, None, None);
      var captured := s.students;
      var busy := DeleteStart(DeleteStart(s, 1), 2);
      var first := SettleDeleteAsWritten(busy, captured, 1, Ok(())).state;
      var second := SettleDeleteAsWritten(first, captured, 2, Ok(())).state;
      Render(DeleteStart(s, 1)).TableView? && Render(DeleteStart(s, 1)).rows[0].deleteDisabled &&
      !Render(DeleteStart(s, 1)).rows[1].deleteDisabled &&
      first.students == [b] && second.students == [a] && a in second.students
  {
    var a := Student(1, "Ada", "Lovelace", "ada@example.org", "1", "Maths", 1.0, 4.0, true);
    var b := Student(2, "Alan", "Turing", "alan@example.org", "2", "Maths", 2.0, 4.0, true);
    OnlyDeletedRowDisabled(ListState([a, b], false, None, None), 1);
    var keep1 := (st: Student) => Survives(st, 1);
    var keep2 := (st: Student) => Survives(st, 2);
    Seqs.FilterSnoc([a], b, keep1);
    Seqs.FilterSnoc([], a, keep1);
    Seqs.FilterSnoc([a], b, keep2);
    Seqs.FilterSnoc([], a, keep2);
    assert [a] + [b] == [a, b];
  }

  /** With each settle applied to the list as it then is, two overlapping
      successful deletes remove both ids and keep every other student. */
  lemma OverlappingDeletesBothApply(s: ListState, a: int, b: int)
    ensures var busy := DeleteStart(DeleteStart(s, a), b);
      var first := SettleDelete(busy, a, Ok(())).state;
      var second := SettleDelete(first, b, Ok(())).state;
      && (forall st :: st in second.students ==> st.id != a && st.id != b)
      && (forall st: Student :: st.id != a && st.id != b ==>
            multiset(second.students)[st] == multiset(s.students)[st])
  {
    var busy := DeleteStart(DeleteStart(s, a), b);
    var first := SettleDelete(busy, a, Ok(())).state;
    var second := SettleDelete(first, b, Ok(())).state;
    forall st | st in second.students ensures st.id != a && st.id != b {
      assert multiset(second.students)[st] == multiset(first.students)[st];
      assert st in first.students;
    }
  }

  /** With nothing else in between, a delete settles the same way whether
      it filters the captured list or the current one. */
  lemma SingleDeleteAgrees(s: ListState, id: int, outcome: Outcome<(), HttpError>)
    ensures SettleDeleteAsWritten(DeleteStart(s, id), s.students, id, outcome) ==
      SettleDelete(DeleteStart(s, id), id, outcome)
  {
  }

  /** Deleting keeps student ids unique. */
  lemma DeleteKeepsUniqueIds(s: ListState, id: int, confirmed: bool, outcome: Outcome<(), HttpError>)
    requires Seqs.UniqueKeys(s.students, IdOf)
    ensures Seqs.UniqueKeys(HandleDelete(s, id, confirmed, outcome).state.students, IdOf)
  {
    if confirmed && outcome.Ok? {
      Seqs.FilterKeepsUnique(s.students, st => Survives(st, id), IdOf);
    }
  }

  /** A successful delete from a list made of two parts deletes from each
      part and keeps the parts in their order. */
  lemma DeleteKeepsOrder(s: ListState, id: int, front: seq<Student>, back: seq<Student>)
    requires s.students == front + back
    ensures HandleDelete(s, id, true, Ok(())).state.students ==
      HandleDelete(s.(students := front), id, true, Ok(())).state.students
      + HandleDelete(s.(students := back), id, true, Ok(())).state.students
  {
    Seqs.FilterAppend(front, back, st => Survives(st, id));
  }

  // ---------------------------------------------------------------------
  // Rendering
  // ---------------------------------------------------------------------

  /** One table row: id, "first last", email, department, GPA, and the
      delete button's label and disabled flag. */
  datatype StudentRow = StudentRow(
    id: int,
    name: string,
    email: string,
    department: string,
    gpa: real,
    deleteLabel: string,
    deleteDisabled: bool)

  datatype ListView =
    | LoadingView
    | ErrorView(message: string)
    | TableView(heading: string, rows: seq<StudentRow>)

  function Heading(count: nat): string {
    "Students (" + Text.NatToDecimal(count) + ")"
  }

  /** The page: the spinner while loading, then the error if there is one,
      otherwise the table. Only the row being deleted has its button
      disabled and labelled "Deleting...". */
  function Render(s: ListState): (v: ListView)
    ensures v.LoadingView? <==> s.loading
    ensures v.ErrorView? <==> !s.loading && !Blank(s.error)
    ensures v.ErrorView? ==> v.message == s.error.value
    ensures v.TableView? ==> |v.rows| == |s.students|
    ensures v.TableView? ==> forall i :: 0 <= i < |s.students| ==>
      && v.rows[i].id == s.students[i].id
      && v.rows[i].name == s.students[i].firstName + " " + s.students[i].lastName
      && v.rows[i].email == s.students[i].email
      && v.rows[i].department == s.students[i].department
      && v.rows[i].gpa == s.students[i].gpa
      && (v.rows[i].deleteDisabled <==> s.deletingId == Some(s.students[i].id))
      && v.rows[i].deleteLabel == (if v.rows[i].deleteDisabled then "Deleting..." else "Delete")
  {
    if s.loading then LoadingView
    else if !Blank(s.error) then ErrorView(s.error.value)
    else
      var rows := seq(|s.students|, i requires 0 <= i < |s.students| =>
        var st := s.students[i];
        var busy := s.deletingId == Some(st.id);
        StudentRow(st.id, st.firstName + " " + st.lastName, st.email, st.department, st.gpa,
                   if busy then "Deleting..." else "Delete", busy));
      TableView(Heading(|s.students|), rows)
  }

  /** The heading's number, read back, is the number of students. */
  lemma HeadingCountsStudents(s: ListState)
    requires !s.loading && Blank(s.error)
    ensures var h := Render(s).heading;
      |h| >= 12 && h[..10] == "Students (" && h[|h| - 1] == ')' &&
      (forall i :: 10 <= i < |h| - 1 ==> Text.IsDigit(h[i])) &&
      Text.DecimalValue(h[10..|h| - 1]) == |s.students|
  {
    var d := Text.NatToDecimal(|s.students|);
    var h := Heading(|s.students|);
    assert h[10..|h| - 1] == d;
    Text.DecimalRoundTrip(|s.students|);
  }

  /** After a successful load the page shows the table of the loaded
      students; after a failed one it shows the error. */
  lemma LoadThenRender(s: ListState, outcome: Outcome<seq<Student>, HttpError>)
    ensures outcome.Ok? ==> Render(Load(s, outcome)).TableView? && |Render(Load(s, outcome)).rows| == |outcome.data|
    ensures outcome.Ok? ==> forall i :: 0 <= i < |outcome.data| ==>
      var row := Render(Load(s, outcome)).rows[i];
      var st := outcome.data[i];
      row.id == st.id && row.name == st.firstName + " " + st.lastName && row.email == st.email
    ensures outcome.Err? ==> Render(Load(s, outcome)) == ErrorView(MessageOr(outcome.error, "Failed to load"))
  {
  }
}

=== FILE: src/text.dfy ===
/** String helpers the source uses through JavaScript's String API,
    restricted to ASCII: lower-casing, trimming, substring search, joining
    tokens, and decimal rendering of integers. */
module Text {

  // ---------------------------------------------------------------------
  // Lower-casing
  // ---------------------------------------------------------------------

  predicate IsUpper(c: char) { 'A' <= c <= 'Z' }

  /** ASCII lower-casing of one character. */
  function LowerChar(c: char): (r: char)
    ensures IsUpper(c) ==> r as int == c as int + 32
    ensures !IsUpper(c) ==> r == c
    ensures !IsUpper(r)
  {
    if IsUpper(c) then (c as int + 32) as char else c
  }

  /** `String.prototype.toLowerCase`, for ASCII letters. */
  function Lower(s: string): (r: string)
    ensures |r| == |s|
    ensures forall i :: 0 <= i < |s| ==> r[i] == LowerChar(s[i])
  {
    seq(|s|, i requires 0 <= i < |s| => LowerChar(s[i]))
  }

  /** Lower-casing is idempotent: a lower-cased string has no upper-case letter left. */
  lemma LowerIdempotent(s: string)
    ensures Lower(Lower(s)) == Lower(s)
  {
    var l := Lower(s);
    assert forall i :: 0 <= i < |l| ==> !IsUpper(l[i]);
  }

  // ---------------------------------------------------------------------
  // Substring search
  // ---------------------------------------------------------------------

  /** `t` occurs in `s` starting at index `i`. */
  predicate OccursAt(s: string, t: string, i: int) {
    0 <= i && i + |t| <= |s| && s[i..i + |t|] == t
  }

  /** `t` is a substring of `s`. */
  predicate Contains(s: string, t: string) {
    exists i :: 0 <= i <= |s| && OccursAt(s, t, i)
  }

  /** `s.indexOf(t)`: the first index where `t` occurs in `s`, or -1 when it
      does not occur anywhere. */
  function IndexOf(s: string, t: string): (r: int)
    ensures -1 <= r <= |s|
    ensures r == -1 <==> !Contains(s, t)
    ensures r >= 0 ==> OccursAt(s, t, r) && forall j :: 0 <= j < r ==> !OccursAt(s, t, j)
  {
    IndexFrom(s, t, 0)
  }

  function IndexFrom(s: string, t: string, k: nat): (r: int)
    requires k <= |s| + 1
    requires forall j :: 0 <= j < k ==> !OccursAt(s, t, j)
    ensures -1 <= r <= |s|
    ensures r == -1 <==> !Contains(s, t)
    ensures r >= 0 ==> OccursAt(s, t, r) && forall j :: 0 <= j < r ==> !OccursAt(s, t, j)
    decreases |s| + 1 - k
  {
    if k + |t| > |s| then
      assert forall j :: OccursAt(s, t, j) ==> j < k;
      -1
    else if s[k..k + |t|] == t then
      assert OccursAt(s, t, k);
      k
    else IndexFrom(s, t, k + 1)
  }

  /** The empty string occurs in every string, at index 0. */
  lemma EmptyOccurs(s: string)
    ensures IndexOf(s, "") == 0
  {
    assert OccursAt(s, "", 0);
  }

  // ---------------------------------------------------------------------
  // Trimming
  // ---------------------------------------------------------------------

  /** The ASCII white-space characters `String.prototype.trim` removes. */
  predicate IsSpace(c: char) {
    c == ' ' || c == '\t' || c == '\n' || c == '\r' || c == '\U{000B}' || c == '\U{000C}'
  }

  /** Every character of `s` is white space. */
  predicate AllSpace(s: string) {
    forall i :: 0 <= i < |s| ==> IsSpace(s[i])
  }

  /** Index of the first non-space character of `s`, or `|s|`. */
  function LeadingEnd(s: string): (r: nat)
    ensures r <= |s|
    ensures forall i :: 0 <= i < r ==> IsSpace(s[i])
    ensures r < |s| ==> !IsSpace(s[r])
  {
    if |s| > 0 && IsSpace(s[0]) then 1 + LeadingEnd(s[1..]) else 0
  }

  /** One past the index of the last non-space character of `s`, or 0. */
  function TrailingStart(s: string): (r: nat)
    ensures r <= |s|
    ensures forall i :: r <= i < |s| ==> IsSpace(s[i])
    ensures r > 0 ==> !IsSpace(s[r - 1])
  {
    if |s| > 0 && IsSpace(s[|s| - 1]) then TrailingStart(s[..|s| - 1]) else |s|
  }

  /** `String.prototype.trim`: drop leading and trailing white space. The
      result is the slice of `s` between its first and last non-space
      characters; everything cut off on either side is white space. */
  function Trim(s: string): (r: string)
    ensures LeadingEnd(s) == |s| ==> r == []
    ensures LeadingEnd(s) < |s| ==> LeadingEnd(s) < TrailingStart(s) && r == s[LeadingEnd(s)..TrailingStart(s)]
    ensures r == [] || (!IsSpace(r[0]) && !IsSpace(r[|r| - 1]))
  {
    var a := LeadingEnd(s);
    if a == |s| then [] else s[a..TrailingStart(s)]
  }

  /** A string trims to "" exactly when it is all white space. */
  lemma TrimEmptyIffAllSpace(s: string)
    ensures Trim(s) == "" <==> AllSpace(s)
  {
  }

  /** A non-blank string trims to a non-empty piece of itself. */
  lemma TrimOccurs(s: string)
    ensures Trim(s) != "" <==> !AllSpace(s)
    ensures Trim(s) != "" ==> Contains(s, Trim(s))
  {
    TrimEmptyIffAllSpace(s);
    if Trim(s) != "" {
      assert OccursAt(s, Trim(s), LeadingEnd(s));
    }
  }

  /** Trimming twice is trimming once. */
  lemma TrimIdempotent(s: string)
    ensures Trim(Trim(s)) == Trim(s)
  {
    var r := Trim(s);
    if r != [] {
      assert LeadingEnd(r) == 0;
      assert TrailingStart(r) == |r|;
    }
  }

  // ---------------------------------------------------------------------
  // JavaScript string length
  // ---------------------------------------------------------------------

  /** How many UTF-16 code units `c` takes: two for a character outside
      the Basic Multilingual Plane (a surrogate pair), one otherwise. */
  function Utf16Units(c: char): nat {
    if c as int > 0xFFFF then 2 else 1
  }

  /** JavaScript's `s.length`: the number of UTF-16 code units of `s`. */
  function Utf16Length(s: string): (n: nat)
    ensures |s| <= n <= 2 * |s|
    ensures n == 0 <==> s == ""
  {
    if s == [] then 0 else Utf16Length(s[..|s| - 1]) + Utf16Units(s[|s| - 1])
  }

  /** A string of characters from the Basic Multilingual Plane has one
      code unit per character; any other character adds one more. */
  lemma {:induction false} Utf16LengthCounts(s: string)
    ensures (forall i :: 0 <= i < |s| ==> s[i] as int <= 0xFFFF) ==> Utf16Length(s) == |s|
    ensures (exists i :: 0 <= i < |s| && s[i] as int > 0xFFFF) ==> Utf16Length(s) > |s|
  {
    if s != [] {
      var s' := s[..|s| - 1];
      Utf16LengthCounts(s');
      assert forall i :: 0 <= i < |s'| ==> s'[i] == s[i];
      if exists i :: 0 <= i < |s| && s[i] as int > 0xFFFF {
        var i :| 0 <= i < |s| && s[i] as int > 0xFFFF;
        if i < |s'| {
          assert s'[i] as int > 0xFFFF;
        }
      }
    }
  }

  // ---------------------------------------------------------------------
  // Joining tokens
  // ---------------------------------------------------------------------

  /** The tokens joined with a single separator character, as a DOM token
      list serialises into the `class` attribute. */
  function Join(tokens: seq<string>, sep: char): (r: string)
    ensures |tokens| == 1 ==> r == tokens[0]
    ensures tokens == [] ==> r == ""
    ensures |tokens| >= 2 ==> sep in r
  {
    if |tokens| == 0 then ""
    else if |tokens| == 1 then tokens[0]
    else
      var r := tokens[0] + [sep] + Join(tokens[1..], sep);
      assert r[|tokens[0]|] == sep;
      r
  }

  // ---------------------------------------------------------------------
  // Decimal rendering
  // ---------------------------------------------------------------------

  predicate IsDigit(c: char) { '0' <= c <= '9' }

  function DigitChar(d: nat): (c: char)
    requires d < 10
    ensures IsDigit(c)
  {
    ('0' as int + d) as char
  }

  /** The decimal digits of `n`, most significant first, with no leading zero. */
  function NatToDecimal(n: nat): (r: string)
    ensures |r| >= 1
    ensures forall i :: 0 <= i < |r| ==> IsDigit(r[i])
    ensures |r| > 1 ==> r[0] != '0'
  {
    if n < 10 then [DigitChar(n)]
    else NatToDecimal(n / 10) + [DigitChar(n % 10)]
  }

  /** The number a string of decimal digits denotes. */
  function DecimalValue(s: string): nat
    requires forall i :: 0 <= i < |s| ==> IsDigit(s[i])
  {
    if s == [] then 0
    else
      assert IsDigit(s[|s| - 1]);
      DecimalValue(s[..|s| - 1]) * 10 + (s[|s| - 1] as int - '0' as int)
  }

  /** Rendering then reading back gives the original number. */
  lemma {:induction false} DecimalRoundTrip(n: nat)
    ensures DecimalValue(NatToDecimal(n)) == n
  {
    if n >= 10 {
      DecimalRoundTrip(n / 10);
      var r := NatToDecimal(n);
      assert r[..|r| - 1] == NatToDecimal(n / 10);
    }
  }

  /** `String(n)` for an integer number: an optional minus sign, then digits. */
  function IntToDecimal(n: int): (r: string)
    ensures n >= 0 ==> r == NatToDecimal(n)
    ensures n < 0 ==> r == "-" + NatToDecimal(-n)
  {
    if n < 0 then "-" + NatToDecimal(-n) else NatToDecimal(n)
  }
}

=== FILE: src/theme_switchers.dfy ===
/** The theme switcher of the Microsoft Learn website exercise: each click
    moves light to dark, dark to medium, and anything else to light, then
    relabels the button from the body's `className`. */
module LearnThemeSwitcher {
  import opened Wrappers
  import opened Themes
  import Dom

  /** The body classes after a click, and the button's new buttonText. */
  datatype ClickResult = ClickResult(classes: seq<string>, buttonText: string)

  /** The theme the click handler's tests find first: light, then dark,
      then medium. */
  function Current(classes: seq<string>): Option<Theme> {
    if ClassOf(Light) in classes then Some(Light)
    else if ClassOf(Dark) in classes then Some(Dark)
    else if ClassOf(Medium) in classes then Some(Medium)
    else None
  }

  /** The cycle light → dark → medium → light; no theme leads to light. */
  function Next(t: Option<Theme>): Theme {
    match t
    case Some(Light) => Dark
    case Some(Dark) => Medium
    case _ => Light
  }

  /** The class-list half of the click handler. */
  function Step(classes: seq<string>): (r: seq<string>)
    ensures Current(r) == Some(Next(Current(classes)))
    ensures ThemeCount(classes) <= 1 ==> ThemeCount(r) == 1
    ensures Others(r) == Others(classes)
    ensures Dom.Distinct(classes) ==> Dom.Distinct(r)
    ensures Dom.Tokens(classes) ==> Dom.Tokens(r)
  {
    if ClassOf(Light) in classes then Swap(classes, Light, Dark)
    else if ClassOf(Dark) in classes then Swap(classes, Dark, Medium)
    else Swap(classes, Medium, Light)
  }

  /** The label the handler derives from the body's `className`: when the
      body carries exactly one theme class it names the theme the next click
      moves to; any other `className` gives "Light". */
  function LabelFor(className: string): (r: string)
    ensures forall t: Theme :: className == ClassOf(t) ==> r == Name(Next(Some(t)))
    ensures (forall t: Theme :: className != ClassOf(t)) ==> r == Name(Light)
  {
    if className == "light-theme" then assert className == ClassOf(Light); "Dark"
    else if className == "dark-theme" then assert className == ClassOf(Dark); "Medium"
    else "Light"
  }

  /** The click handler: move the theme on, then relabel the button. */
  function Click(classes: seq<string>): (r: ClickResult)
    ensures Current(r.classes) == Some(Next(Current(classes)))
    ensures ThemeCount(classes) <= 1 ==> ThemeCount(r.classes) == 1
    ensures Others(r.classes) == Others(classes)
    ensures Dom.Distinct(classes) ==> Dom.Distinct(r.classes)
  {
    var next := Step(classes);
    ClickResult(next, LabelFor(Dom.ClassName(next)))
  }

  /** On a body whose only class is one theme class, or none, the buttonText
      names the theme the next click will produce. */
  lemma LabelNamesNextTheme(classes: seq<string>)
    requires Dom.Distinct(classes) && Dom.Tokens(classes)
    requires Others(classes) == [] && ThemeCount(classes) <= 1
    ensures Click(classes).buttonText == Name(Next(Current(Click(classes).classes)))
  {
    var next := Step(classes);
    var t := Next(Current(classes));
    assert ClassOf(t) in next by {
      assert Current(next) == Some(t);
    }
    OnlyThemeClass(next, t);
    assert Dom.ClassName(next) == ClassOf(t);
  }

  /** With any other class on the body, `className` never equals a single
      theme class and the buttonText is always "Light". */
  lemma OtherClassesForceLightLabel(classes: seq<string>)
    requires Dom.Tokens(classes)
    requires Others(classes) != []
    ensures Click(classes).buttonText == "Light"
  {
    var r := Click(classes);
    assert Others(r.classes) != [];
    assert r.classes != ["light-theme"] && r.classes != ["dark-theme"];
    Dom.ClassNameIsSingle(r.classes, "light-theme");
    Dom.ClassNameIsSingle(r.classes, "dark-theme");
  }

  /** Three clicks from a body carrying one theme class bring back that
      theme, and the other classes never change: the cycle has length 3. */
  lemma ThreeClicksReturn(classes: seq<string>)
    requires ThemeCount(classes) == 1
    ensures var c3 := Click(Click(Click(classes).classes).classes).classes;
      Current(c3) == Current(classes) && ThemeCount(c3) == 1 && Others(c3) == Others(classes)
  {
  }
}

/** The theme switcher of the simple website: each click moves light to
    medium, medium to dark, and anything else to light, and labels the
    button with the theme after that. */
module ThemeSwitcher {
  import opened Wrappers
  import opened Themes
  import Dom

  datatype ClickResult = ClickResult(classes: seq<string>, buttonText: string)

  /** The theme the click handler's tests find first: light, then medium,
      then dark. */
  function Current(classes: seq<string>): Option<Theme> {
    if ClassOf(Light) in classes then Some(Light)
    else if ClassOf(Medium) in classes then Some(Medium)
    else if ClassOf(Dark) in classes then Some(Dark)
    else None
  }

  /** The cycle light → medium → dark → light; no theme leads to light. */
  function Next(t: Option<Theme>): Theme {
    match t
    case Some(Light) => Medium
    case Some(Medium) => Dark
    case _ => Light
  }

  /** The click handler. The buttonText always names the theme the following
      click will produce. */
  function Click(classes: seq<string>): (r: ClickResult)
    ensures Current(r.classes) == Some(Next(Current(classes)))
    ensures r.buttonText == Name(Next(Current(r.classes)))
    ensures ThemeCount(classes) <= 1 ==> ThemeCount(r.classes) == 1
    ensures Others(r.classes) == Others(classes)
    ensures Dom.Distinct(classes) ==> Dom.Distinct(r.classes)
  {
    if ClassOf(Light) in classes then ClickResult(Swap(classes, Light, Medium), "Dark")
    else if ClassOf(Medium) in classes then ClickResult(Swap(classes, Medium, Dark), "Light")
    else ClickResult(Swap(classes, Dark, Light), "Medium")
  }

  /** Three clicks from a body carrying one theme class bring back that
      theme, and the other classes never change: the cycle has length 3. */
  lemma ThreeClicksReturn(classes: seq<string>)
    requires ThemeCount(classes) == 1
    ensures var c3 := Click(Click(Click(classes).classes).classes).classes;
      Current(c3) == Current(classes) && ThemeCount(c3) == 1 && Others(c3) == Others(classes)
  {
  }
}

=== FILE: src/themes.dfy ===
/** What the two theme switchers share: the three themes, their body
    classes and button names, and how adding or removing a theme class
    leaves the body's other classes alone. */
module Themes {
  import Dom
  import Seqs

  datatype Theme = Light | Dark | Medium

  /** The body class that selects a theme. */
  function ClassOf(t: Theme): string {
    match t
    case Light => "light-theme"
    case Dark => "dark-theme"
    case Medium => "medium-theme"
  }

  /** How a button label names a theme. */
  function Name(t: Theme): string {
    match t
    case Light => "Light"
    case Dark => "Dark"
    case Medium => "Medium"
  }

  predicate IsThemeClass(c: string) {
    c == "light-theme" || c == "dark-theme" || c == "medium-theme"
  }

  predicate NotTheme(c: string) { !IsThemeClass(c) }

  /** How many theme classes the body carries. */
  function ThemeCount(classes: seq<string>): nat {
    (if ClassOf(Light) in classes then 1 else 0)
    + (if ClassOf(Dark) in classes then 1 else 0)
    + (if ClassOf(Medium) in classes then 1 else 0)
  }

  /** The body's other classes, in order. */
  function Others(classes: seq<string>): seq<string> {
    Seqs.Filter(classes, NotTheme)
  }

  /** Removing a theme class leaves the other classes as they were. */
  lemma RemoveKeepsOthers(classes: seq<string>, t: Theme)
    ensures Others(Dom.Remove(classes, ClassOf(t))) == Others(classes)
  {
    Seqs.FilterFilter(classes, x => Dom.Differs(x, ClassOf(t)), NotTheme);
  }

  /** Adding a theme class leaves the other classes as they were. */
  lemma AddKeepsOthers(classes: seq<string>, t: Theme)
    ensures Others(Dom.Add(classes, ClassOf(t))) == Others(classes)
  {
    if ClassOf(t) !in classes {
      Seqs.FilterSnoc(classes, ClassOf(t), NotTheme);
    }
  }

  /** `classList.remove(from)` then `classList.add(to)`: theme `to`
      replaces theme `from`, the third theme class and every other class
      stay as they were. */
  function Swap(classes: seq<string>, from: Theme, to: Theme): (r: seq<string>)
    requires from != to
    ensures ClassOf(to) in r && ClassOf(from) !in r
    ensures forall u :: u != from && u != to ==> (ClassOf(u) in r <==> ClassOf(u) in classes)
    ensures Others(r) == Others(classes)
    ensures Dom.Distinct(classes) ==> Dom.Distinct(r)
    ensures Dom.Tokens(classes) ==> Dom.Tokens(r)
  {
    var removed := Dom.Remove(classes, ClassOf(from));
    RemoveKeepsOthers(classes, from);
    AddKeepsOthers(removed, to);
    SwapKeepsThird(classes, from, to);
    assert Dom.IsToken(ClassOf(to));
    Dom.Add(removed, ClassOf(to))
  }

  /** The theme class neither removed nor added by a swap keeps its presence. */
  lemma SwapKeepsThird(classes: seq<string>, from: Theme, to: Theme)
    requires from != to
    ensures forall u :: u != from && u != to ==>
      (ClassOf(u) in Dom.Add(Dom.Remove(classes, ClassOf(from)), ClassOf(to)) <==> ClassOf(u) in classes)
  {
    var removed := Dom.Remove(classes, ClassOf(from));
    forall u | u != from && u != to
      ensures ClassOf(u) in Dom.Add(removed, ClassOf(to)) <==> ClassOf(u) in classes
    {
      assert ClassOf(u) != ClassOf(from) && ClassOf(u) != ClassOf(to);
      assert ClassOf(u) in removed <==> ClassOf(u) in classes;
    }
  }

  /** A duplicate-free body with no other class and theme `t` as its only
      theme class carries exactly that class. */
  lemma OnlyThemeClass(classes: seq<string>, t: Theme)
    requires Dom.Distinct(classes)
    requires Others(classes) == []
    requires ThemeCount(classes) == 1 && ClassOf(t) in classes
    ensures classes == [ClassOf(t)]
  {
    forall i | 0 <= i < |classes| ensures classes[i] == ClassOf(t) {
      var x := classes[i];
      Seqs.FilterCount(classes, NotTheme, x);
      assert multiset(classes)[x] > 0;
    }
    // the first and the last class are equal, so they are the same one
    assert classes[0] == classes[|classes| - 1];
  }
}

=== FILE: src/todos.dfy ===
/** The simple to-do app: a form with a title and a completion flag, and an
    ordered list of to-dos that grows by `handleAddition` and shrinks by
    `handleDeletion`. */
module Todos {
  import Text
  import Seqs

  datatype Todo = Todo(id: int, title: string, completed: bool)

  /** The component state: the two form fields and the list. */
  datatype TodoApp = TodoApp(title: string, completed: bool, todos: seq<Todo>)

  const Initial := TodoApp("", false, [])

  function IdOf(t: Todo): int { t.id }

  predicate UniqueIds(todos: seq<Todo>) {
    Seqs.UniqueKeys(todos, IdOf)
  }

  /** `handleAddition`, with the `Date.now()` timestamp passed in as `now`.
      A title that is blank after trimming is refused and nothing changes.
      Otherwise exactly one to-do is appended, carrying the trimmed title and
      the current completion flag, earlier to-dos stay as they were, and the
      form resets to an empty title and an unchecked box. */
  function HandleAddition(app: TodoApp, now: int): (r: TodoApp)
    ensures r == app <==> Text.AllSpace(app.title)
    ensures !Text.AllSpace(app.title) ==>
      && |r.todos| == |app.todos| + 1
      && r.todos[..|app.todos|] == app.todos
      && r.todos[|app.todos|].id == now
      && r.todos[|app.todos|].title == Text.Trim(app.title)
      && r.todos[|app.todos|].completed == app.completed
      && r.title == "" && !r.completed
    ensures !Text.AllSpace(app.title) ==>
      var t := r.todos[|app.todos|].title;
      t != [] && !Text.IsSpace(t[0]) && !Text.IsSpace(t[|t| - 1]) && Text.Contains(app.title, t)
  {
    Text.TrimOccurs(app.title);
    var t := Text.Trim(app.title);
    if t == "" then app
    else
      var r := TodoApp("", false, app.todos + [Todo(now, t, app.completed)]);
      assert |r.todos| != |app.todos|;
      r
  }

  /** Does `t` survive deleting the to-dos with id `id`? */
  predicate Survives(t: Todo, id: int) { t.id != id }

  /** `handleDeletion`: unless the confirmation is declined, every to-do
      with the clicked to-do's id is removed and the others keep their order. */
  function HandleDeletion(app: TodoApp, todo: Todo, confirmed: bool): (r: TodoApp)
    ensures !confirmed ==> r == app
    ensures r.title == app.title && r.completed == app.completed
    ensures confirmed ==> forall t :: t in r.todos ==> t.id != todo.id
    ensures confirmed ==> forall t: Todo :: t.id != todo.id ==> multiset(r.todos)[t] == multiset(app.todos)[t]
  {
    if !confirmed then app
    else
      var keep := t => Survives(t, todo.id);
      var rest := Seqs.Filter(app.todos, keep);
      forall t ensures multiset(rest)[t] == if keep(t) then multiset(app.todos)[t] else 0 {
        Seqs.FilterCount(app.todos, keep, t);
      }
      app.(todos := rest)
  }

  /** Adding with a fresh id keeps ids unique. */
  lemma AdditionKeepsUniqueIds(app: TodoApp, now: int)
    requires UniqueIds(app.todos)
    requires forall t :: t in app.todos ==> t.id != now
    ensures UniqueIds(HandleAddition(app, now).todos)
  {
    var r := HandleAddition(app, now);
    if !Text.AllSpace(app.title) {
      assert r.todos == app.todos + [r.todos[|app.todos|]];
      Seqs.AppendFreshKeepsUnique(app.todos, r.todos[|app.todos|], IdOf);
    }
  }

  /** Deleting always keeps ids unique. */
  lemma DeletionKeepsUniqueIds(app: TodoApp, todo: Todo, confirmed: bool)
    requires UniqueIds(app.todos)
    ensures UniqueIds(HandleDeletion(app, todo, confirmed).todos)
  {
    if confirmed {
      Seqs.FilterKeepsUnique(app.todos, t => Survives(t, todo.id), IdOf);
    }
  }

  /** Deleting from a list made of two parts deletes from each part and
      keeps the parts in their order: the survivors keep their relative order. */
  lemma DeletionKeepsOrder(app: TodoApp, todo: Todo, front: seq<Todo>, back: seq<Todo>)
    requires app.todos == front + back
    ensures HandleDeletion(app, todo, true).todos ==
      HandleDeletion(app.(todos := front), todo, true).todos + HandleDeletion(app.(todos := back), todo, true).todos
  {
    Seqs.FilterAppend(front, back, t => Survives(t, todo.id));
  }

  /** Deleting the to-do just added (with a fresh id) restores the list. */
  lemma DeleteUndoesAdd(app: TodoApp, now: int)
    requires forall t :: t in app.todos ==> t.id != now
    requires !Text.AllSpace(app.title)
    ensures var added := HandleAddition(app, now);
      HandleDeletion(added, added.todos[|app.todos|], true).todos == app.todos
  {
    var added := HandleAddition(app, now);
    var t := added.todos[|app.todos|];
    var keep := x => Survives(x, t.id);
    assert added.todos == app.todos + [t];
    Seqs.FilterSnoc(app.todos, t, keep);
    Seqs.FilterAll(app.todos, keep);
  }

  // ---------------------------------------------------------------------
  // Rendering
  // ---------------------------------------------------------------------

  /** One table row: id, title and "Yes"/"No" for completion. */
  datatype TodoRow = TodoRow(id: int, title: string, completed: string)

  datatype TodosView = Placeholder(text: string) | Table(rows: seq<TodoRow>)

  /** `DisplayAllTodos`: the placeholder for an empty list, otherwise one
      row per to-do, in list order. */
  function DisplayAllTodos(todos: seq<Todo>): (v: TodosView)
    ensures v.Placeholder? <==> todos == []
    ensures v.Placeholder? ==> v.text == "No tasks yet!"
    ensures v.Table? ==> |v.rows| == |todos|
    ensures v.Table? ==> forall i :: 0 <= i < |todos| ==>
      && v.rows[i].id == todos[i].id
      && v.rows[i].title == todos[i].title
      && (v.rows[i].completed == "Yes" <==> todos[i].completed)
      && (v.rows[i].completed == "No" <==> !todos[i].completed)
  {
    if |todos| == 0 then Placeholder("No tasks yet!")
    else Table(seq(|todos|, i requires 0 <= i < |todos| =>
      TodoRow(todos[i].id, todos[i].title, if todos[i].completed then "Yes" else "No")))
  }

  /** A to-do just added shows up as the table's last row, with its id, the
      trimmed title and the completed flag the form held. */
  lemma AddedTodoIsLastRow(app: TodoApp, now: int)
    requires !Text.AllSpace(app.title)
    ensures var v := DisplayAllTodos(HandleAddition(app, now).todos);
      && v.Table?
      && |v.rows| == |app.todos| + 1
      && v.rows[|app.todos|] == TodoRow(now, Text.Trim(app.title), if app.completed then "Yes" else "No")
  {
  }
}

=== FILE: src/wrappers.dfy ===
/** The optional-value and request-outcome types shared by the rest of the model. */
module Wrappers {

  /** A value that may be absent: JavaScript's `null`/`undefined` where the
      source treats both alike. */
  datatype Option<+T> = None | Some(value: T)

  /** The settled result of an asynchronous request: its data, or the error
      the promise rejected with. */
  datatype Outcome<+T, +E> = Ok(data: T) | Err(error: E)
}
